=== FILE: README.md ===
# Lightweight retrieval core and URL builder, in Dafny

This project models two parts of a support-chat application.

- **The retrieval core of the backend** (`backend/embeddings.ts`):
  - text becomes a 100-bucket bag-of-words vector by lower-casing, splitting on runs of non-word characters, dropping short words, hashing each word with a 32-bit rolling hash and adding its frequency to its bucket;
  - the vector is scaled to unit length;
  - documents are ranked against a query by cosine similarity, with a stable sort cut to `topK`;
  - a document without an embedding gets one computed the first time it is ranked.
- **The URL builder of the frontend** (`buildUrl` in `frontend/src/shared/routes.ts`): it fills `:key` placeholders of an API path.

Modules, one per file:

- `Hashing` (hashing.dfy): `simpleHash` and the bucket index.
  - It models the signed 32-bit arithmetic of the source: `<<`, `&` and ECMAScript ToInt32.
  - It proves the loop equal to the wrapped exact polynomial hash.
- `Tokenizer` (tokenizer.dfy): `toLowerCase`, `split(/\W+/)` and the length filter.
  - `split` follows the host language's semantics, including the empty first and last pieces that a leading or trailing separator produces.
- `Vectors` (vectors.dfy): dot product, squared norm, Cauchy–Schwarz, and division by a scalar.
- `Embedder` (embedder.dfy): `generateSimpleEmbedding`.
  - The vector before normalisation is exact integer arithmetic.
  - The normalised vector is over the reals.
- `Similarity` (similarity.dfy): `cosineSimilarity`.
- `Ranking` (ranking.dfy): the stable descending sort and `slice(0, topK)`.
- `Retriever` (retriever.dfy): `DocumentChunk`, `findRelevantDocs` and `initializeEmbeddings`.
- `Routes` (routes.dfy): `buildUrl`.
- `Wrappers` (wrappers.dfy): `Option`.
- `Seqs` (seqs.dfy): `Last`, the final element of a sequence.

Modelling choices:

- **Square root.** `Math.sqrt` is not computed. Every member that needs it takes a function `sqrt` with `IsSqrt(sqrt)`: non-negative values whose square is the argument. Reals stand in for doubles.
- **Input mutation.** The source stores a computed embedding on the caller's document object. Here `FindRelevantDocs` returns the updated documents next to the ranking, and the input positions of the ranked documents stand for object identity. `initializeEmbeddings` builds new records, so its input is never changed.
- **Negative `topK`.** It is not treated as zero. `slice(0, topK)` counts back from the end, and `Ranking.SliceEnd` does the same.
- **Base URL.** The `VITE_API_BASE_URL` environment variable is a parameter of `buildUrl`: `None` when it is unset.

## Model

| member | source | states |
|---|---|---|
| Hashing.ToInt32 | backend/embeddings.ts:39-40 | the 32-bit wrap lands in the signed 32-bit range and differs from its argument by a multiple of 2^32 |
| Hashing.ToInt32Congruence | backend/embeddings.ts:39-40 | two numbers wrap to the same value exactly when they agree modulo 2^32; in-range values are unchanged |
| Hashing.HashStep | backend/embeddings.ts:39-40 | one iteration of the loop leaves the hash a signed 32-bit integer |
| Hashing.HashFold | backend/embeddings.ts:36-41 | after every character the hash is a signed 32-bit integer |
| Hashing.HashStepIsTimes31 | backend/embeddings.ts:39-40 | `((h << 5) - h) + c` followed by `h & h` is the wrapped `h * 31 + c` |
| Hashing.HashFoldIsWrappedPolyHash | backend/embeddings.ts:35-42 | the hash loop ends at the exact polynomial hash `sum c_i * 31^(n-1-i)` reduced into the signed 32-bit range |
| Hashing.SimpleHash | backend/embeddings.ts:35-43 | the hash is the absolute value of the wrapped polynomial hash, hence non-negative and at most 2^31 |
| Hashing.Bucket | backend/embeddings.ts:26 | the bucket index lies in [0, 100) and is congruent to the hash modulo 100 |
| Tokenizer.LowerChar | backend/embeddings.ts:16 | a capital becomes the lower-case letter at the same place in the alphabet; every other character is unchanged; word characters stay word characters |
| Tokenizer.Lower | backend/embeddings.ts:16 | lower-casing keeps the length and lower-cases every character where it stands |
| Tokenizer.LowerIdempotent | backend/embeddings.ts:16 | lower-casing twice is lower-casing once |
| Tokenizer.Split | backend/embeddings.ts:16 | only that there is at least one piece (the empty text gives one empty piece); where the cuts fall is stated by SplitWord and SplitSeparated |
| Tokenizer.SplitWord | backend/embeddings.ts:16 | a text of word characters only is a single piece |
| Tokenizer.SplitSeparated | backend/embeddings.ts:16 | a run of one or more non-word characters between a text not ending in a separator and one not starting with a separator cuts there once: the pieces are those of both sides, in order |
| Tokenizer.SplitTrailingSeparator | backend/embeddings.ts:16 | a run of non-word characters ending the text adds one empty piece after the pieces of the text before it |
| Tokenizer.SplitPiecesAreWordChars | backend/embeddings.ts:16 | every piece of `split(/\W+/)` consists of word characters of the text |
| Tokenizer.SplitKeepsWordChars | backend/embeddings.ts:16 | the pieces put back together are exactly the word characters of the text, in order |
| Tokenizer.SplitLastPiece | backend/embeddings.ts:16 | the last piece is the run of word characters that ends the text (empty after a trailing separator) |
| Tokenizer.SplitMaxLen | backend/embeddings.ts:16 | the longest piece is as long as the longest run of word characters |
| Tokenizer.LongestRunCharacterisation | backend/embeddings.ts:16 | the longest run exceeds 2 exactly when three consecutive word characters occur |
| Tokenizer.KeepLong | backend/embeddings.ts:16 | the filter never lengthens the list; what it keeps is stated by KeepLongCounts and KeepLongAppend |
| Tokenizer.KeepLongCounts | backend/embeddings.ts:16 | the filter keeps each piece longer than 2 as many times as it occurs and drops every other piece |
| Tokenizer.KeepLongMembers | backend/embeddings.ts:16 | a word is kept exactly when it is a piece longer than 2 |
| Tokenizer.KeepLongAppend | backend/embeddings.ts:16 | the filter keeps the order: filtering a concatenation concatenates the filtered parts |
| Tokenizer.KeepLongEmpty | backend/embeddings.ts:16 | the filter keeps nothing exactly when no piece is longer than 2 |
| Tokenizer.Tokens | backend/embeddings.ts:16 | the empty text has no token; the tokens of every other text are stated by TokenShape, TokensOfWord and TokensSeparated |
| Tokenizer.TokenShape | backend/embeddings.ts:16 | every token is longer than 2 and consists of lower-case word characters |
| Tokenizer.TokensOfWord | backend/embeddings.ts:16 | a text of word characters gives its lower-cased self as the one token when longer than 2, and no token otherwise |
| Tokenizer.TokensSeparated | backend/embeddings.ts:16 | around a run of non-word characters the tokens are those of the text before it followed by those of the text after it |
| Tokenizer.TokensOfThreeWords | backend/embeddings.ts:16 | lower-case words `a`, `b`, `c` joined by runs of non-word characters give the tokens `a` and `b` when only `c` is at most 2 long ("abcd, efg, h" gives "abcd", "efg") |
| Tokenizer.TokensEmptyIff | backend/embeddings.ts:16 | a text has no token exactly when no three consecutive characters are word characters |
| Tokenizer.TokensIgnoreCase | backend/embeddings.ts:16 | texts equal up to case have the same tokens |
| Vectors.SqrtFacts | backend/embeddings.ts:31 | a square root is 0 only at 0, positive on positive numbers, and 1 at 1 |
| Vectors.SumSq | backend/embeddings.ts:31 | the squared norm is non-negative and vanishes exactly on the zero vector |
| Vectors.DotSymmetric | backend/embeddings.ts:56 | the dot product does not depend on argument order |
| Vectors.DotSelf | backend/embeddings.ts:56-57 | a vector's dot product with itself is its squared norm |
| Vectors.Dot | backend/embeddings.ts:56 | the dot product with a zero vector on either side is 0 |
| Vectors.CrossSqExpand | backend/embeddings.ts:55-59 | `sum (a_i y - x b_i)^2` expands into squared norms and the dot product, and is non-negative |
| Vectors.CauchySchwarz | backend/embeddings.ts:55-59 | the square of the dot product is at most the product of the squared norms |
| Vectors.DivBy | backend/embeddings.ts:32 | dividing every entry by `m` gives entries whose product with `m` is the original entry |
| Vectors.SumSqDivBy | backend/embeddings.ts:31-32 | dividing by `m` divides the squared norm by `m^2` |
| Embedder.WordFreq | backend/embeddings.ts:17-21 | the frequency map has exactly the words as keys and maps each word to its number of occurrences |
| Embedder.CountWords | backend/embeddings.ts:17-21 | the counting loop builds that frequency map |
| Embedder.RawEmbedding | backend/embeddings.ts:16-28 | only that there is one entry per bucket (100); the contents of each bucket are stated by BucketIsSumOfSquaredFrequencies and RawEmbeddingZeroIff |
| Embedder.Accumulate | backend/embeddings.ts:24-28 | the vector has 100 entries and bucket `b` holds the sum of the frequencies of the occurrences hashed into `b` |
| Embedder.AddFrequencies | backend/embeddings.ts:24-28 | the accumulation loop builds that vector |
| Embedder.RawEmbeddingLoop | backend/embeddings.ts:16-28 | the source's two loops compute the vector before normalisation |
| Embedder.Distinct | backend/embeddings.ts:17-21 | the distinct words hold each word of the input exactly once |
| Embedder.WeightedSumExtend | backend/embeddings.ts:25-28 | one more occurrence of a word adds its frequency to the per-word sum only when the word is among the summed words |
| Embedder.OccIsWeightedSum | backend/embeddings.ts:25-28 | summing per occurrence equals summing per distinct word weighted by its number of occurrences |
| Embedder.BucketIsSumOfSquaredFrequencies | backend/embeddings.ts:17-28 | bucket `b` equals the sum, over distinct tokens hashed into `b`, of their squared frequency |
| Embedder.RawEmbeddingZeroIff | backend/embeddings.ts:24-28 | every raw entry is non-negative, and the raw vector is zero exactly when there is no token |
| Embedder.Normalize | backend/embeddings.ts:31-32 | a zero vector is returned unchanged; any other comes back with squared norm 1 and each entry times the magnitude equal to the input entry |
| Embedder.NormalizeNonNegative | backend/embeddings.ts:32 | normalising keeps entries non-negative |
| Embedder.Embed | backend/embeddings.ts:13-33 | 100 non-negative entries; zero exactly when the text has no token, otherwise of norm 1 and proportional to the bucket counts |
| Embedder.EmbedZeroIff | backend/embeddings.ts:13-33 | the embedding is zero exactly when no three consecutive characters are word characters |
| Embedder.EmbedIgnoresCase | backend/embeddings.ts:16 | texts equal up to case have the same embedding |
| Embedder.EmbedTestTextIsUnit | backend/embeddings.test.ts:17-23 | the embedding of "test text" has norm 1 |
| Similarity.Cosine | backend/embeddings.ts:48-67 | 0 on a length mismatch or a zero vector; otherwise the score times both magnitudes is the dot product; always within [-1, 1] |
| Similarity.BoundedQuotient | backend/embeddings.ts:66 | a quotient whose numerator squared is at most its positive denominator squared lies in [-1, 1] |
| Similarity.CosineSimilarity | backend/embeddings.ts:48-67 | the one-pass loop with its guards computes the cosine |
| Similarity.CosineSymmetric | backend/embeddings.ts:48-67 | the score does not depend on argument order |
| Similarity.CosineSelf | backend/embeddings.test.ts:39-43 | a non-zero vector scores 1 against itself |
| Similarity.CosineOrthogonal | backend/embeddings.test.ts:45-50 | vectors of equal length with dot product 0 score 0 |
| Similarity.CosineExamples | backend/embeddings.test.ts:45-65 | the orthogonal example and the length-mismatch example score 0 |
| Ranking.Insert | backend/embeddings.ts:92 | inserting into a ranked sequence keeps it ranked and adds exactly the inserted entry |
| Ranking.Sort | backend/embeddings.ts:92 | the sort is a permutation in descending score order, with equal scores in input order |
| Ranking.RankedUnique | backend/embeddings.ts:92 | two ranked arrangements of the same entries are equal, so every stable descending sort gives `Sort` |
| Ranking.SortKeepsRanked | backend/embeddings.ts:92 | an already ranked input is left in place |
| Ranking.SortEqualScores | backend/embeddings.ts:92 | when all scores are 0 the order is the input order |
| Ranking.SliceEnd | backend/embeddings.ts:93 | the end of `slice(0, k)` on `n` entries: `k` capped at `n`, and a negative `k` counting back from `n`, never below 0 |
| Ranking.Tag | backend/embeddings.ts:80-88 | entry `i` carries input position `i` and the `i`-th score, and the entries are in input order |
| Ranking.Top | backend/embeddings.ts:92-93 | the kept entries are ranked and as many as the slice gives |
| Ranking.TopComplete | backend/embeddings.ts:92-93 | the kept entries come from the input and each precedes every entry left out |
| Ranking.RankPositions | backend/embeddings.ts:91-94 | the kept positions are distinct, in range, in stable descending order, and each precedes every position left out |
| Ranking.RankPositionsAllZero | backend/embeddings.ts:91-94 | with all scores 0 the kept positions are 0, 1, 2, … |
| Retriever.Scores | backend/embeddings.ts:77-88 | one score per document, each the cosine of the query's embedding with that document's embedding |
| Retriever.Memoize | backend/embeddings.ts:81-83 | a document keeps an embedding it has, gets the embedding of `title + " " + content` otherwise, and keeps title and content |
| Retriever.DocText | backend/embeddings.ts:82 | the text is the title, one space and the content, each recoverable from its place |
| Retriever.MemoizeAll | backend/embeddings.ts:80-83 | every document is memoised where it stands, and the count is unchanged |
| Retriever.FindRelevantDocs | backend/embeddings.ts:72-95 | the documents come back memoised; `min(topK, n)` results for `topK >= 0`, each from a distinct input position, in stable descending score, none scoring below a document left out |
| Retriever.FindRelevantDocsDefault | backend/embeddings.ts:72-76 | without `topK` the retrieval is the one with `topK` 3, returning three documents or all when there are fewer |
| Retriever.RankedByScore | backend/embeddings.ts:91-94 | along the result scores do not increase, equal scores keep input order, and no document left out scores higher than one kept |
| Retriever.EmptyQueryKeepsOrder | backend/embeddings.ts:77-94 | a query without tokens returns the first `topK` documents in input order |
| Retriever.RetrievalIsMemoized | backend/embeddings.ts:80-83 | retrieving again on the returned documents changes neither the documents nor any later ranking |
| Retriever.InitializeEmbeddings | backend/embeddings.ts:100-105 | same number of records, same titles and contents, and each with a fresh 100-entry embedding of its text |
| Retriever.InitializeAgreesWithMemoize | backend/embeddings.ts:100-105 | on documents without embeddings initialising equals memoising, and retrieval leaves initialised documents unchanged |
| Retriever.InitializeIdempotent | backend/embeddings.ts:100-105 | initialising twice is initialising once |
| Routes.Digits | frontend/src/shared/routes.ts:61 | decimal digits, at least one, without a leading zero |
| Routes.NumberToString | frontend/src/shared/routes.ts:61 | the decimal form of a number uses digits and a leading minus exactly for negative numbers |
| Routes.NumberToStringRoundTrip | frontend/src/shared/routes.ts:61 | reading back the decimal form gives the number |
| Routes.IndexOf | frontend/src/shared/routes.ts:60 | the position found is an occurrence with none before it; without a position there is no occurrence |
| Routes.Includes | frontend/src/shared/routes.ts:60 | the URL includes a placeholder exactly when it occurs at some position |
| Routes.Substitution | frontend/src/shared/routes.ts:61 | `$`-pattern expansion leaves a replacement without `$` as it is; `$$` gives `$`, `$&` the matched text, `` $` `` the text before the match, `$'` the text after it, and a lone `$` stays `$` |
| Routes.SubstitutionLiteralPrefix | frontend/src/shared/routes.ts:61 | template text without `$` is copied as it is, and the rest of the template is expanded after it |
| Routes.SubstitutionPattern | frontend/src/shared/routes.ts:61 | each of `$$`, `$&`, `` $` `` and `$'` is expanded on its own, followed by the expansion of the rest of the template |
| Routes.SubstitutionLoneDollar | frontend/src/shared/routes.ts:61 | a `$` not followed by `$`, `&`, `` ` `` or `'` stands for itself, followed by the expansion of the rest |
| Routes.ReplaceFirst | frontend/src/shared/routes.ts:61 | without an occurrence the URL is unchanged; literal replacement puts the value at the first occurrence and keeps the text around it |
| Routes.ApplyParam | frontend/src/shared/routes.ts:60-62 | a parameter whose placeholder is absent leaves the URL unchanged |
| Routes.ApplyParams | frontend/src/shared/routes.ts:59-63 | a URL without `:` holds no placeholder and passes through every parameter unchanged |
| Routes.BuildUrlAsWritten | frontend/src/shared/routes.ts:53-66 | without parameters the URL is the base followed by the path |
| Routes.BaseUrl | frontend/src/shared/routes.ts:55 | an unset variable gives the empty base, a set one its value |
| Routes.BuildUrl | frontend/src/shared/routes.ts:53-66 | with no or an empty parameter map the URL is the base followed by the path; with one parameter, an absent placeholder leaves it so and a present one has the value put at its first occurrence, keeping the text on both sides |
| Routes.BuildUrlNoParams | frontend/src/shared/routes.ts:55-58 | no parameters and an empty parameter map both give base plus path |
| Routes.ApplyParamsAppend | frontend/src/shared/routes.ts:59-63 | parameters apply in entry order, each to the result of the ones before |
| Routes.AbsentKeyUnchanged | frontend/src/shared/routes.ts:60 | a placeholder that does not occur leaves the URL unchanged |
| Routes.FirstPlaceholderReplaced | frontend/src/shared/routes.ts:60-61 | only the first occurrence of the placeholder is replaced, and the text on both sides is kept |
| Routes.FirstOccurrence | frontend/src/shared/routes.ts:60 | an occurrence whose first character appears nowhere earlier is the first occurrence |
| Routes.PlaceholderPrefixMatches | frontend/src/shared/routes.ts:59-63 | matching is textual: `id` fills the start of `:idx` |
| Routes.AsWrittenAgreesWithoutDollar | frontend/src/shared/routes.ts:61 | on values without `$` the code as written agrees with literal substitution |
| Routes.BuildUrlAgreesOnNumbers | frontend/src/shared/routes.ts:53-66 | when every parameter is a number the code as written agrees with literal substitution, so the discrepancy needs a string value |
| Routes.AmpersandValueKeepsUrl | frontend/src/shared/routes.ts:60-61 | as written, the value `$&` gives back the URL unchanged, the placeholder included, for every URL and key |
| Routes.DollarValueCounterexample | frontend/src/shared/routes.ts:61 | the value `$&` leaves `/a/:id` unchanged as written but gives `/a/$&` with literal substitution |

## Left out

- IEEE-754 doubles: normalisation and cosine are over the reals, and `Math.sqrt` is any exact square root. Rounding is not modelled. `toBeCloseTo` in the tests is read as exact equality.
- Unicode case mapping: lower-casing is modelled on ASCII letters. `\W` without the unicode flag is ASCII-only, so the split is exact on every character. Non-ASCII letters whose lower case is ASCII (the Kelvin sign, dotted capital I) are not modelled.
- `charCodeAt` beyond the Basic Multilingual Plane: characters are code points. Only ASCII word characters reach the hash.
- Numbers in `buildUrl` parameters are integers. Fractional values and exponent notation of `String(number)` are left out.
- The order of `Object.entries`: parameters are a sequence in entry order. The engine's placing of integer-like keys first is not modelled.
- The concrete expectations of the tests that depend on specific hash values are not proved: "password reset" and "refund policy" differ, and "Password Reset" ranks first for "reset password".
- `NaN` scores and the comparator `b.score - a.score` on non-finite numbers: reals have neither.
- The unused `OpenAI` import, the example script, the zod `api` object, persistence, the HTTP handler, the build script and all UI code. These are outside this model.
- Ranking.Sort: the engine's sorting algorithm is not modelled, only its stable result. `Ranking.RankedUnique` shows that this result is the only one possible.
- Routes.Substitution: its own contract states a template without `$` and the five templates `$$`, `$&`, `` $` ``, `$'` and `$` alone. Mixed templates such as `x$&` are stated by SubstitutionLiteralPrefix, SubstitutionPattern and SubstitutionLoneDollar, which together determine the expansion of every template piece by piece.
- Routes.ReplaceFirst: for the `$`-expanding mode, the contract states only the no-occurrence case. What is inserted is `Routes.Substitution`, whose contract, with SubstitutionLiteralPrefix, SubstitutionPattern and SubstitutionLoneDollar, determines the inserted text for every replacement.
- Tokenizer.Split: its own contract states only that there is at least one piece. The lemmas SplitWord, SplitSeparated (for a run of non-word characters of any length) and SplitTrailingSeparator state where the cuts fall; with them every text's pieces follow by splitting it at its separator runs.
- Tokenizer.KeepLong: its own contract states only that the list does not grow. KeepLongCounts states how often each piece is kept and KeepLongAppend that the order is kept.
- Tokenizer.Tokens: its own contract states only that the empty text has no token. TokenShape, TokensOfWord and TokensSeparated state what the tokens of a text are; they are lemmas so that the facts are not unfolded at every use of `Tokens`.
- Retriever.FindRelevantDocs: `topK` is an integer. `slice` also truncates fractional values and treats `NaN` as 0 through ToIntegerOrInfinity; the callers pass integers.
- Embedder.RawEmbedding: its own contract states only the number of buckets. The lemmas BucketIsSumOfSquaredFrequencies and RawEmbeddingZeroIff state what each bucket holds.
- Routes.BuildUrl: its contract states the cases of at most one parameter. Longer parameter maps reduce to one replacement at a time through `Routes.ApplyParamsAppend` and `Routes.FirstPlaceholderReplaced`.
- Routes.BuildUrlAsWritten: its contract states only the no-parameter case. `Routes.AsWrittenAgreesWithoutDollar` carries the rest over from `Routes.BuildUrl`.

## Findings

| source | as written | input that shows it | evidently intended | confidence | as-written member | corrected member |
|---|---|---|---|---|---|---|
| frontend/src/shared/routes.ts:61 | `url.replace(':' + key, String(value))` expands `$$`, `$&`, `` $` `` and `$'` in the value | path `/a/:id`, params `{ id: "$&" }`, no base URL: the result is `/a/:id` | the value inserted verbatim: `/a/$&` | medium, not executed | Routes.DollarValueCounterexample | Routes.FirstPlaceholderReplaced |

=== FILE: embedder.dfy ===
/**
 `generateSimpleEmbedding`: a bag-of-words vector of `DIM` buckets. Every
 token adds its own frequency to the bucket its hash selects, so a bucket
 ends up holding the sum of the squared frequencies of the distinct tokens
 hashed into it; the vector is then scaled to unit length unless it is zero.
 */
module Embedder {
  import opened Hashing
  import opened Tokenizer
  import opened Vectors

  /** `wordFreq.get(word) || 0`. */
  function Lookup(m: map<string, nat>, w: string): nat {
    if w in m then m[w] else 0
  }

  /** The `wordFreq` map after `words.forEach(...)`: its keys are the words,
      and each word maps to its number of occurrences. */
  function WordFreq(words: seq<string>): (m: map<string, nat>)
    ensures forall w :: w in m <==> w in words
    ensures forall w :: Lookup(m, w) == multiset(words)[w]
  {
    if |words| == 0 then map[]
    else
      var init, w := words[..|words| - 1], words[|words| - 1];
      var m := WordFreq(init);
      assert words == init + [w];
      m[w := Lookup(m, w) + 1]
  }

  function Zeros(n: nat): (v: seq<int>)
    ensures |v| == n
    ensures forall i :: 0 <= i < n ==> v[i] == 0
  {
    seq(n, _ => 0)
  }

  /** Sum of `Lookup(freq, w)` over the occurrences `w` in `words` that hash
      into bucket `b`. */
  function Occ(words: seq<string>, freq: map<string, nat>, b: nat): nat {
    if |words| == 0 then 0
    else
      var w := words[|words| - 1];
      Occ(words[..|words| - 1], freq, b) + (if Bucket(w) == b then Lookup(freq, w) else 0)
  }

  /** The second `forEach`: starting from 100 zeros, every word adds
      `Lookup(freq, word)` to bucket `Bucket(word)`. */
  function Accumulate(words: seq<string>, freq: map<string, nat>): (v: seq<int>)
    ensures |v| == DIM
    ensures forall b :: 0 <= b < DIM ==> v[b] == Occ(words, freq, b)
  {
    if |words| == 0 then Zeros(DIM)
    else
      var w := words[|words| - 1];
      var v := Accumulate(words[..|words| - 1], freq);
      v[Bucket(w) := v[Bucket(w)] + Lookup(freq, w)]
  }

  /** The vector before normalisation. */
  function RawEmbedding(text: string): (v: seq<int>)
    ensures |v| == DIM
  {
    var words := Tokens(text);
    Accumulate(words, WordFreq(words))
  }

  predicate NoDup<T(==)>(s: seq<T>) {
    forall i, j :: 0 <= i < j < |s| ==> s[i] != s[j]
  }

  /** The distinct words, in order of first occurrence. */
  function Distinct(words: seq<string>): (ds: seq<string>)
    ensures forall w :: w in ds <==> w in words
    ensures NoDup(ds)
  {
    if |words| == 0 then []
    else
      var init, w := words[..|words| - 1], words[|words| - 1];
      var ds := Distinct(init);
      assert forall v :: v in words <==> v in init || v == w;
      if w in init then ds else ds + [w]
  }

  /** The contribution of `w` to a weighted sum: (occurrences of `w` in
      `words`) times `Lookup(g, w)` when `w` hashes into bucket `b`. */
  function Term(w: string, words: seq<string>, g: map<string, nat>, b: nat): int {
    if Bucket(w) == b then multiset(words)[w] * Lookup(g, w) else 0
  }

  /** Sum of `Term(w, words, g, b)` over the words `w` of `ds`. */
  function WeightedSum(ds: seq<string>, words: seq<string>, g: map<string, nat>, b: nat): int {
    if |ds| == 0 then 0
    else WeightedSum(ds[..|ds| - 1], words, g, b) + Term(ds[|ds| - 1], words, g, b)
  }

  /** Sum over the words `w` of `ds` in bucket `b` of the square of the
      number of occurrences of `w` in `words`. */
  function FreqSquares(ds: seq<string>, words: seq<string>, b: nat): int {
    if |ds| == 0 then 0
    else
      var w := ds[|ds| - 1];
      FreqSquares(ds[..|ds| - 1], words, b) + (if Bucket(w) == b then multiset(words)[w] * multiset(words)[w] else 0)
  }

  lemma Distribute(m: int, k: int, l: int)
    ensures (m + k) * l == m * l + k * l
  {
  }

  /** One more occurrence of `x` changes the term of `x` alone, by `Lookup(g, x)`. */
  lemma TermExtend(y: string, words: seq<string>, x: string, g: map<string, nat>, b: nat)
    ensures Term(y, words + [x], g, b)
         == Term(y, words, g, b) + (if y == x && Bucket(x) == b then Lookup(g, x) else 0)
  {
    var k := if y == x then 1 else 0;
    assert multiset(words + [x])[y] == multiset(words)[y] + k;
    Distribute(multiset(words)[y], k, Lookup(g, y));
  }

  /** One more occurrence of `x` adds `Lookup(g, x)` to a weighted sum over
      distinct words that include `x`, and nothing otherwise. */
  lemma {:induction false} WeightedSumExtend(ds: seq<string>, words: seq<string>, x: string, g: map<string, nat>, b: nat)
    requires NoDup(ds)
    ensures WeightedSum(ds, words + [x], g, b)
         == WeightedSum(ds, words, g, b) + (if x in ds && Bucket(x) == b then Lookup(g, x) else 0)
  {
    if |ds| > 0 {
      var ds', y := ds[..|ds| - 1], ds[|ds| - 1];
      assert NoDup(ds');
      assert x in ds <==> x in ds' || x == y;
      assert y == x ==> x !in ds';
      WeightedSumExtend(ds', words, x, g, b);
      TermExtend(y, words, x, g, b);
    }
  }

  /** One more word is a new distinct word unless it was seen before. */
  lemma DistinctSnoc(init: seq<string>, x: string)
    ensures Distinct(init + [x]) == if x in init then Distinct(init) else Distinct(init) + [x]
  {
    assert (init + [x])[..|init|] == init;
  }

  /** One more word adds its weight when it falls in bucket `b`. */
  lemma OccSnoc(init: seq<string>, x: string, g: map<string, nat>, b: nat)
    ensures Occ(init + [x], g, b) == Occ(init, g, b) + (if Bucket(x) == b then Lookup(g, x) else 0)
  {
    assert (init + [x])[..|init|] == init;
  }

  lemma WeightedSumSnoc(ds: seq<string>, x: string, words: seq<string>, g: map<string, nat>, b: nat)
    ensures WeightedSum(ds + [x], words, g, b) == WeightedSum(ds, words, g, b) + Term(x, words, g, b)
  {
    assert (ds + [x])[..|ds|] == ds;
  }

  /** Summing per occurrence is summing per distinct word, weighted by its
      number of occurrences. */
  lemma {:induction false} OccIsWeightedSum(words: seq<string>, g: map<string, nat>, b: nat)
    ensures Occ(words, g, b) == WeightedSum(Distinct(words), words, g, b)
  {
    if |words| > 0 {
      var init, x := words[..|words| - 1], words[|words| - 1];
      assert words == init + [x];
      OccIsWeightedSum(init, g, b);
      OccWeightedStep(init, x, g, b);
    }
  }

  /** The inductive step of OccIsWeightedSum: one more word `x`. */
  lemma OccWeightedStep(init: seq<string>, x: string, g: map<string, nat>, b: nat)
    requires Occ(init, g, b) == WeightedSum(Distinct(init), init, g, b)
    ensures Occ(init + [x], g, b) == WeightedSum(Distinct(init + [x]), init + [x], g, b)
  {
    OccSnoc(init, x, g, b);
    DistinctSnoc(init, x);
    if x in init {
      OccStepSeen(init, x, g, b);
    } else {
      OccStepNew(init, x, g, b);
    }
  }

  /** A word seen before adds its weight to its own term. */
  lemma OccStepSeen(init: seq<string>, x: string, g: map<string, nat>, b: nat)
    requires x in init
    ensures WeightedSum(Distinct(init), init + [x], g, b)
         == WeightedSum(Distinct(init), init, g, b) + (if Bucket(x) == b then Lookup(g, x) else 0)
  {
    WeightedSumExtend(Distinct(init), init, x, g, b);
  }

  /** A new word adds a term of its own, with one occurrence. */
  lemma OccStepNew(init: seq<string>, x: string, g: map<string, nat>, b: nat)
    requires x !in init
    ensures WeightedSum(Distinct(init) + [x], init + [x], g, b)
         == WeightedSum(Distinct(init), init, g, b) + (if Bucket(x) == b then Lookup(g, x) else 0)
  {
    var ds, words := Distinct(init), init + [x];
    WeightedSumExtend(ds, init, x, g, b);
    WeightedSumSnoc(ds, x, words, g, b);
    assert multiset(words)[x] == 1 by {
      assert multiset(init)[x] == 0;
    }
  }

  lemma {:induction false} WeightedSumOfFreq(ds: seq<string>, words: seq<string>, b: nat)
    ensures WeightedSum(ds, words, WordFreq(words), b) == FreqSquares(ds, words, b)
  {
    if |ds| > 0 {
      WeightedSumOfFreq(ds[..|ds| - 1], words, b);
    }
  }

  /** Bucket `b` of the raw vector is the sum, over the distinct tokens `w`
      hashed into `b`, of the squared frequency of `w`. */
  lemma BucketIsSumOfSquaredFrequencies(text: string, b: nat)
    requires b < DIM
    ensures RawEmbedding(text)[b] == FreqSquares(Distinct(Tokens(text)), Tokens(text), b)
  {
    var words := Tokens(text);
    OccIsWeightedSum(words, WordFreq(words), b);
    WeightedSumOfFreq(Distinct(words), words, b);
  }

  /** The raw vector has no negative entry, and it is zero exactly when the
      text has no token. */
  lemma RawEmbeddingZeroIff(text: string)
    ensures forall b :: 0 <= b < DIM ==> 0 <= RawEmbedding(text)[b]
    ensures (forall b :: 0 <= b < DIM ==> RawEmbedding(text)[b] == 0) <==> Tokens(text) == []
  {
    var words := Tokens(text);
    if words != [] {
      var w := words[|words| - 1];
      var freq := WordFreq(words);
      assert multiset(words)[w] > 0;
      assert RawEmbedding(text)[Bucket(w)] == Occ(words, freq, Bucket(w));
      assert Occ(words, freq, Bucket(w)) >= Lookup(freq, w);
    }
  }

  /** The first `forEach` of the source: count every word. */
  method CountWords(words: seq<string>) returns (wordFreq: map<string, nat>)
    ensures wordFreq == WordFreq(words)
  {
    wordFreq := map[];
    for i := 0 to |words|
      invariant wordFreq == WordFreq(words[..i])
    {
      assert words[..i + 1][..i] == words[..i] && words[..i + 1][i] == words[i];
      wordFreq := wordFreq[words[i] := Lookup(wordFreq, words[i]) + 1];
    }
    assert words[..|words|] == words;
  }

  /** The second `forEach` of the source: add every word's frequency to the
      bucket of its hash. */
  method AddFrequencies(words: seq<string>, wordFreq: map<string, nat>) returns (embedding: seq<int>)
    ensures embedding == Accumulate(words, wordFreq)
  {
    embedding := Zeros(DIM);
    for i := 0 to |words|
      invariant embedding == Accumulate(words[..i], wordFreq)
    {
      assert words[..i + 1][..i] == words[..i] && words[..i + 1][i] == words[i];
      var hash := Bucket(words[i]);
      embedding := embedding[hash := embedding[hash] + Lookup(wordFreq, words[i])];
    }
    assert words[..|words|] == words;
  }

  /** Lines 16-28 of the source: tokenise, count, accumulate. */
  method RawEmbeddingLoop(text: string) returns (embedding: seq<int>)
    ensures embedding == RawEmbedding(text)
  {
    var words := Tokens(text);
    var wordFreq := CountWords(words);
    embedding := AddFrequencies(words, wordFreq);
  }

  function ToReals(v: seq<int>): (r: seq<real>)
    ensures |r| == |v|
    ensures forall i :: 0 <= i < |v| ==> r[i] == v[i] as real
  {
    seq(|v|, i requires 0 <= i < |v| => v[i] as real)
  }

  /** A number whose product with a positive number is that number is 1. */
  lemma UnitFactor(x: real, s: real)
    requires 0.0 < s && Mul(x, s) == s
    ensures x == 1.0
  {
    assert Mul(x - 1.0, s) == Mul(x, s) - s;
    MulSign(x - 1.0, s);
    MulSign(1.0 - x, s);
    assert Mul(1.0 - x, s) == -Mul(x - 1.0, s);
  }

  /** A quotient of a non-negative number by a positive one is non-negative. */
  lemma QuotientSign(x: real, m: real, v: real)
    requires 0.0 < m && 0.0 <= v && Mul(x, m) == v
    ensures 0.0 <= x
  {
    MulSign(-x, m);
    assert Mul(-x, m) == -Mul(x, m);
  }

  /** Line 31-32: divide by the magnitude when it is positive. The result is
      either the input (magnitude 0) or a vector of squared norm 1 pointing
      the same way: each entry times the magnitude is the input entry. */
  function Normalize(v: seq<real>, sqrt: real -> real): (r: seq<real>)
    requires IsSqrt(sqrt)
    ensures |r| == |v|
    ensures IsZero(v) ==> r == v
    ensures !IsZero(v) ==> SumSq(r) == 1.0
    ensures !IsZero(v) ==> forall i :: 0 <= i < |v| ==> Mul(r[i], sqrt(SumSq(v))) == v[i]
  {
    var m := sqrt(SumSq(v));
    SqrtFacts(sqrt, SumSq(v));
    if m > 0.0 then
      SumSqDivBy(v, m);
      UnitFactor(SumSq(DivBy(v, m)), SumSq(v));
      DivBy(v, m)
    else v
  }

  /** Normalising keeps entries non-negative. */
  lemma NormalizeNonNegative(v: seq<real>, sqrt: real -> real)
    requires IsSqrt(sqrt)
    requires forall i :: 0 <= i < |v| ==> 0.0 <= v[i]
    ensures forall i :: 0 <= i < |v| ==> 0.0 <= Normalize(v, sqrt)[i]
  {
    var e := Normalize(v, sqrt);
    SqrtFacts(sqrt, SumSq(v));
    forall i | 0 <= i < |v|
      ensures 0.0 <= e[i]
    {
      if !IsZero(v) {
        QuotientSign(e[i], sqrt(SumSq(v)), v[i]);
      }
    }
  }

  /** The raw vector as reals: non-negative, and zero exactly when the text
      has no token. */
  lemma RawRealsZeroIff(text: string)
    ensures forall i :: 0 <= i < DIM ==> 0.0 <= ToReals(RawEmbedding(text))[i]
    ensures IsZero(ToReals(RawEmbedding(text))) <==> Tokens(text) == []
  {
    RawEmbeddingZeroIff(text);
    ToRealsZero(RawEmbedding(text));
  }

  lemma ToRealsZero(v: seq<int>)
    ensures IsZero(ToReals(v)) <==> forall i :: 0 <= i < |v| ==> v[i] == 0
    ensures (forall i :: 0 <= i < |v| ==> 0 <= v[i]) ==> forall i :: 0 <= i < |v| ==> 0.0 <= ToReals(v)[i]
  {
  }

  /** `generateSimpleEmbedding(text)`: `DIM` non-negative entries; the zero
      vector when the text has no token, and otherwise a vector of squared
      norm 1 proportional to the bucket counts. */
  function Embed(text: string, sqrt: real -> real): (e: seq<real>)
    requires IsSqrt(sqrt)
    ensures |e| == DIM
    ensures forall i :: 0 <= i < DIM ==> 0.0 <= e[i]
    ensures Tokens(text) == [] <==> IsZero(e)
    ensures Tokens(text) != [] ==> SumSq(e) == 1.0 && sqrt(SumSq(e)) == 1.0
    ensures Tokens(text) != [] ==>
      forall i :: 0 <= i < DIM ==> Mul(e[i], sqrt(SumSq(ToReals(RawEmbedding(text))))) == RawEmbedding(text)[i] as real
  {
    var raw := ToReals(RawEmbedding(text));
    RawRealsZeroIff(text);
    NormalizeNonNegative(raw, sqrt);
    SqrtFacts(sqrt, 1.0);
    Normalize(raw, sqrt)
  }

  /** The embedding is the zero vector exactly when no three consecutive
      characters of the text are word characters. */
  lemma EmbedZeroIff(text: string, sqrt: real -> real)
    requires IsSqrt(sqrt)
    ensures IsZero(Embed(text, sqrt)) <==> !HasLongRun(text)
  {
    TokensEmptyIff(text);
  }

  /** The embedding ignores case. */
  lemma EmbedIgnoresCase(a: string, b: string, sqrt: real -> real)
    requires IsSqrt(sqrt)
    requires Lower(a) == Lower(b)
    ensures Embed(a, sqrt) == Embed(b, sqrt)
  {
    TokensIgnoreCase(a, b);
  }

  /** The source's own example: the embedding of "test text" has norm 1. */
  lemma EmbedTestTextIsUnit(sqrt: real -> real)
    requires IsSqrt(sqrt)
    ensures SumSq(Embed("test text", sqrt)) == 1.0
    ensures sqrt(SumSq(Embed("test text", sqrt))) == 1.0
  {
    assert RunAt("test text", 0);
    TokensEmptyIff("test text");
  }
}

=== FILE: hashing.dfy ===
/**
 The word hash of the embedder: a 32-bit signed rolling hash over the
 characters of a word, `hash = hash * 31 + charCode`, kept in the signed
 32-bit range by the bitwise operators of the host language, and made
 non-negative by taking the absolute value at the end.
 */
module Hashing {

  /** Number of buckets of an embedding vector. */
  const DIM: nat := 100

  const TWO_31: int := 0x8000_0000
  const TWO_32: int := 0x1_0000_0000

  predicate IsInt32(x: int) {
    -TWO_31 <= x < TWO_31
  }

  /** ECMAScript ToInt32 of an integral number: the unique value of the signed
      32-bit range congruent to `x` modulo 2^32. */
  function ToInt32(x: int): (r: int)
    ensures IsInt32(r)
    ensures (x - r) % TWO_32 == 0
  {
    (x + TWO_31) % TWO_32 - TWO_31
  }

  /** ToInt32 identifies exactly the numbers that agree modulo 2^32, and is
      the identity on the signed 32-bit range. */
  lemma ToInt32Congruence(a: int, b: int)
    ensures ToInt32(a) == ToInt32(b) <==> (a - b) % TWO_32 == 0
    ensures IsInt32(a) ==> ToInt32(a) == a
  {
  }

  /** `hash << 5`: both the operand and the shifted value pass through ToInt32. */
  function ShiftLeft5(h: int): int {
    ToInt32(ToInt32(h) * 32)
  }

  /** One iteration of the hash loop as written: `hash = ((hash << 5) - hash) + char`
      followed by `hash = hash & hash`; and-ing a 32-bit value with itself
      leaves ToInt32 of the operand. */
  function HashStep(h: int, code: int): (r: int)
    ensures IsInt32(r)
  {
    var t := ShiftLeft5(h) - h + code;
    ToInt32(t)
  }

  /** The shift-and-subtract step is the wrapped `h * 31 + code`. */
  lemma HashStepIsTimes31(h: int, code: int)
    requires IsInt32(h)
    ensures HashStep(h, code) == ToInt32(h * 31 + code)
  {
    ToInt32Congruence(ShiftLeft5(h) - h + code, h * 31 + code);
  }

  /** The character code the hash reads (`charCodeAt`); for the characters
      that can reach the hash (ASCII word characters) this is the code point. */
  function CharCode(c: char): int {
    c as int
  }

  /** The value of `hash` after the loop has consumed all of `s`. */
  function HashFold(s: string): (h: int)
    ensures IsInt32(h)
  {
    if |s| == 0 then 0 else HashStep(HashFold(s[..|s| - 1]), CharCode(s[|s| - 1]))
  }

  /** The exact, unbounded polynomial hash `sum s[i] * 31^(|s|-1-i)`. */
  function PolyHash(s: string): int {
    if |s| == 0 then 0 else PolyHash(s[..|s| - 1]) * 31 + CharCode(s[|s| - 1])
  }

  /** Multiplying by 31 and adding a character code preserves congruence
      modulo 2^32. */
  lemma CongruentStep(a: int, b: int, code: int)
    requires (a - b) % TWO_32 == 0
    ensures ((a * 31 + code) - (b * 31 + code)) % TWO_32 == 0
  {
    var k := (a - b) / TWO_32;
    assert a - b == k * TWO_32;
    assert (a * 31 + code) - (b * 31 + code) == (31 * k) * TWO_32;
  }

  /** The 32-bit rolling hash is the exact polynomial hash reduced into the
      signed 32-bit range: wrapping at every step loses nothing. */
  lemma {:induction false} HashFoldIsWrappedPolyHash(s: string)
    ensures HashFold(s) == ToInt32(PolyHash(s))
  {
    if |s| > 0 {
      var init := s[..|s| - 1];
      var code := CharCode(s[|s| - 1]);
      var h := HashFold(init);
      HashFoldIsWrappedPolyHash(init);
      HashStepIsTimes31(h, code);
      ToInt32Congruence(PolyHash(init), h);
      CongruentStep(PolyHash(init), h, code);
      ToInt32Congruence(PolyHash(init) * 31 + code, h * 31 + code);
    }
  }

  function Abs(x: int): nat {
    if x < 0 then -x else x
  }

  /** `simpleHash`: the absolute value of the 32-bit rolling hash. The absolute
      value is taken in double arithmetic, so -2^31 maps to 2^31. */
  function SimpleHash(s: string): (r: nat)
    ensures r <= TWO_31
    ensures r == Abs(ToInt32(PolyHash(s)))
  {
    HashFoldIsWrappedPolyHash(s);
    Abs(HashFold(s))
  }

  lemma RemainderDifference(h: nat)
    ensures (h - h % DIM) % DIM == 0
  {
    assert h - h % DIM == (h / DIM) * DIM;
  }

  /** The bucket a word lands in: `simpleHash(word) % 100`. */
  function Bucket(w: string): (b: nat)
    ensures b < DIM
    ensures (SimpleHash(w) - b) % DIM == 0
  {
    RemainderDifference(SimpleHash(w));
    SimpleHash(w) % DIM
  }
}

=== FILE: ranking.dfy ===
/**
 Ranking of scored documents: `sort((a, b) => b.score - a.score)` followed by
 `slice(0, topK)`. The sort of the host language is stable, so documents of
 equal score keep their input order; with every entry tagged by its input
 position, the result is the unique sequence ordered by score descending and
 then by position ascending.
 */
module Ranking {

  /** A document's input position and its similarity score. */
  datatype Scored = Scored(index: nat, score: real)

  /** `a` precedes `b` in the stable descending order. */
  predicate Before(a: Scored, b: Scored) {
    a.score > b.score || (a.score == b.score && a.index < b.index)
  }

  /** Every earlier entry precedes every later one. */
  predicate Ranked(s: seq<Scored>) {
    forall i, j :: 0 <= i < j < |s| ==> Before(s[i], s[j])
  }

  /** Input positions increase along `s`, as they do in `documents.map(...)`. */
  predicate InInputOrder(s: seq<Scored>) {
    forall i, j :: 0 <= i < j < |s| ==> s[i].index < s[j].index
  }

  /** Two entries with different positions are ordered one way or the other,
      never both. */
  lemma BeforeTotal(a: Scored, b: Scored)
    ensures !(Before(a, b) && Before(b, a))
    ensures a.index != b.index ==> Before(a, b) || Before(b, a)
  {
  }

  /** A ranked sequence stays ranked under an entry preceding all of it. */
  lemma RankedCons(h: Scored, t: seq<Scored>)
    requires Ranked(t)
    requires forall e :: e in t ==> Before(h, e)
    ensures Ranked([h] + t)
  {
    var r := [h] + t;
    forall i, j | 0 <= i < j < |r|
      ensures Before(r[i], r[j])
    {
      if i > 0 {
        assert r[i] == t[i - 1] && r[j] == t[j - 1];
      } else {
        assert r[j] in t;
      }
    }
  }

  /** Insert `x` into a ranked sequence at the place the order gives it. */
  function Insert(x: Scored, s: seq<Scored>): (r: seq<Scored>)
    requires Ranked(s)
    requires forall e :: e in s ==> e.index != x.index
    ensures |r| == |s| + 1
    ensures Ranked(r)
    ensures multiset(r) == multiset(s) + multiset{x}
  {
    if |s| == 0 then [x]
    else if Before(x, s[0]) then
      InsertFront(x, s);
      [x] + s
    else
      var t := Insert(x, s[1..]);
      InsertBehind(x, s, t);
      [s[0]] + t
  }

  lemma InsertFront(x: Scored, s: seq<Scored>)
    requires Ranked(s) && |s| > 0 && Before(x, s[0])
    ensures Ranked([x] + s)
  {
    forall e | e in s
      ensures Before(x, e)
    {
      var j :| 0 <= j < |s| && s[j] == e;
      if j > 0 {
        assert Before(s[0], s[j]);
      }
    }
    RankedCons(x, s);
  }

  lemma InsertBehind(x: Scored, s: seq<Scored>, t: seq<Scored>)
    requires Ranked(s) && |s| > 0 && !Before(x, s[0])
    requires forall e :: e in s ==> e.index != x.index
    requires Ranked(t) && multiset(t) == multiset(s[1..]) + multiset{x}
    ensures Ranked([s[0]] + t)
    ensures multiset([s[0]] + t) == multiset(s) + multiset{x}
  {
    assert s == [s[0]] + s[1..];
    BeforeTotal(x, s[0]);
    forall e | e in t
      ensures Before(s[0], e)
    {
      assert e in multiset(t);
      if e != x {
        var j :| 0 <= j < |s[1..]| && s[1..][j] == e;
        assert Before(s[0], s[j + 1]);
      }
    }
    RankedCons(s[0], t);
  }

  /** The stable descending sort. */
  function Sort(s: seq<Scored>): (r: seq<Scored>)
    requires InInputOrder(s)
    ensures |r| == |s|
    ensures Ranked(r)
    ensures multiset(r) == multiset(s)
  {
    if |s| == 0 then []
    else
      var init, x := s[..|s| - 1], s[|s| - 1];
      assert s == init + [x];
      var r := Sort(init);
      assert forall e :: e in r ==> e.index != x.index by {
        forall e | e in r
          ensures e.index != x.index
        {
          assert e in multiset(init);
        }
      }
      Insert(x, r)
  }

  lemma MultisetCancel(a: Scored, x: seq<Scored>, y: seq<Scored>)
    requires multiset([a] + x) == multiset([a] + y)
    ensures multiset(x) == multiset(y)
  {
    assert multiset([a] + x) == multiset{a} + multiset(x);
    assert multiset([a] + y) == multiset{a} + multiset(y);
    assert forall e :: multiset(x)[e] == multiset([a] + x)[e] - multiset{a}[e];
    assert forall e :: multiset(y)[e] == multiset([a] + y)[e] - multiset{a}[e];
  }

  /** The head of a ranked sequence precedes every other entry of it. */
  lemma RankedHead(r: seq<Scored>, e: Scored)
    requires Ranked(r) && e in r
    ensures e == r[0] || Before(r[0], e)
  {
    var j :| 0 <= j < |r| && r[j] == e;
    if j > 0 {
      assert Before(r[0], r[j]);
    }
  }

  /** Two ranked arrangements of the same entries start alike. */
  lemma RankedSameHead(r1: seq<Scored>, r2: seq<Scored>)
    requires Ranked(r1) && Ranked(r2) && |r1| > 0 && |r2| > 0
    requires multiset(r1) == multiset(r2)
    ensures r1[0] == r2[0]
  {
    assert r2[0] in multiset(r1) && r1[0] in multiset(r2);
    RankedHead(r1, r2[0]);
    RankedHead(r2, r1[0]);
    BeforeTotal(r1[0], r2[0]);
  }

  /** There is only one ranked arrangement of given entries: any stable
      descending sort returns `Sort(s)`. */
  lemma {:induction false} RankedUnique(r1: seq<Scored>, r2: seq<Scored>)
    requires Ranked(r1) && Ranked(r2)
    requires multiset(r1) == multiset(r2)
    ensures r1 == r2
  {
    assert |r2| == |multiset(r2)| == |multiset(r1)| == |r1|;
    if |r1| > 0 {
      RankedSameHead(r1, r2);
      assert r1 == [r1[0]] + r1[1..] && r2 == [r1[0]] + r2[1..];
      MultisetCancel(r1[0], r1[1..], r2[1..]);
      RankedUnique(r1[1..], r2[1..]);
    }
  }

  /** Entries already in order are left in place; in particular entries of
      equal score stay in input order. */
  lemma SortKeepsRanked(s: seq<Scored>)
    requires InInputOrder(s) && Ranked(s)
    ensures Sort(s) == s
  {
    RankedUnique(Sort(s), s);
  }

  lemma SortEqualScores(s: seq<Scored>)
    requires InInputOrder(s)
    requires forall i :: 0 <= i < |s| ==> s[i].score == 0.0
    ensures Sort(s) == s
  {
    SortKeepsRanked(s);
  }

  /** `slice(0, k)` on a sequence of length `n`: the end position, with a
      negative `k` counted back from the end. */
  function SliceEnd(n: nat, k: int): (e: nat)
    ensures e <= n
    ensures 0 <= k ==> e == if k < n then k else n
    ensures k < 0 ==> e == if n + k < 0 then 0 else n + k
  {
    if k < 0 then (if n + k < 0 then 0 else n + k)
    else if k < n then k
    else n
  }

  /** The `k` best entries. */
  function Top(s: seq<Scored>, k: int): (r: seq<Scored>)
    requires InInputOrder(s)
    ensures |r| == SliceEnd(|s|, k)
    ensures Ranked(r)
  {
    Sort(s)[..SliceEnd(|s|, k)]
  }

  /** The entries kept are drawn from the input, and every one of them
      precedes every input entry left out. */
  lemma TopComplete(s: seq<Scored>, k: int)
    requires InInputOrder(s)
    ensures forall e :: e in Top(s, k) ==> e in s
    ensures forall e, f :: e in Top(s, k) && f in s && f !in Top(s, k) ==> Before(e, f)
  {
    var r := Sort(s);
    var n := SliceEnd(|s|, k);
    var top := r[..n];
    assert Top(s, k) == top;
    forall e | e in top
      ensures e in s
    {
      var i :| 0 <= i < n && top[i] == e;
      assert r[i] == e;
      SameElements(r, s, e);
    }
    forall e, f | e in top && f in s && f !in top
      ensures Before(e, f)
    {
      SameElements(r, s, f);
      var i :| 0 <= i < n && top[i] == e;
      var j :| 0 <= j < |r| && r[j] == f;
      assert forall m :: 0 <= m < n ==> r[m] != f by {
        assert forall m :: 0 <= m < n ==> r[m] == top[m];
      }
      assert Before(r[i], r[j]);
    }
  }

  lemma SameElements(r: seq<Scored>, s: seq<Scored>, e: Scored)
    requires multiset(r) == multiset(s)
    ensures e in r <==> e in s
  {
    assert e in r <==> e in multiset(r);
    assert e in s <==> e in multiset(s);
  }

  /** `documents.map(...)`: every score tagged with its input position. */
  function Tag(scores: seq<real>): (s: seq<Scored>)
    ensures |s| == |scores|
    ensures InInputOrder(s)
    ensures forall i :: 0 <= i < |s| ==> s[i] == Scored(i, scores[i])
  {
    seq(|scores|, i requires 0 <= i < |scores| => Scored(i, scores[i]))
  }

  predicate AllDifferent(p: seq<nat>) {
    forall k, l :: 0 <= k < l < |p| ==> p[k] != p[l]
  }

  /** Position `i` goes before position `j` in the stable descending order of `scores`. */
  predicate Precedes(scores: seq<real>, i: nat, j: nat)
    requires i < |scores| && j < |scores|
  {
    scores[i] > scores[j] || (scores[i] == scores[j] && i < j)
  }

  /** The entries kept are entries of the tagged input. */
  lemma TopEntries(scores: seq<real>, k: int)
    ensures forall m :: 0 <= m < |Top(Tag(scores), k)| ==>
      Top(Tag(scores), k)[m].index < |scores| && Top(Tag(scores), k)[m] == Tag(scores)[Top(Tag(scores), k)[m].index]
  {
    var s := Tag(scores);
    var top := Top(s, k);
    TopComplete(s, k);
    forall m | 0 <= m < |top|
      ensures top[m].index < |s| && top[m] == s[top[m].index]
    {
      assert top[m] in s;
    }
  }

  /** Every kept position goes before every position left out. */
  lemma TopBeatsRest(scores: seq<real>, k: int, p: seq<nat>)
    requires |p| == |Top(Tag(scores), k)|
    requires forall m :: 0 <= m < |p| ==> p[m] == Top(Tag(scores), k)[m].index
    ensures forall m, i :: 0 <= m < |p| && 0 <= i < |scores| && i !in p ==>
      p[m] < |scores| && Precedes(scores, p[m], i)
  {
    var s := Tag(scores);
    var top := Top(s, k);
    TopEntries(scores, k);
    TopComplete(s, k);
    forall m, i | 0 <= m < |p| && 0 <= i < |scores| && i !in p
      ensures p[m] < |scores| && Precedes(scores, p[m], i)
    {
      assert s[i] !in top;
      assert Before(top[m], s[i]);
    }
  }

  /** Input positions of the `k` best scores, best first: at most `k` of
      them (all when `k` is at least the count, fewer counted back from the
      end when `k` is negative), distinct, in the stable descending order,
      and each going before every position left out. */
  function RankPositions(scores: seq<real>, k: int): (p: seq<nat>)
    ensures |p| == SliceEnd(|scores|, k)
    ensures forall m :: 0 <= m < |p| ==> p[m] < |scores|
    ensures AllDifferent(p)
    ensures forall m, l :: 0 <= m < l < |p| ==> Precedes(scores, p[m], p[l])
    ensures forall m, i :: 0 <= m < |p| && 0 <= i < |scores| && i !in p ==> Precedes(scores, p[m], i)
  {
    var top := Top(Tag(scores), k);
    TopEntries(scores, k);
    var p := seq(|top|, m requires 0 <= m < |top| => top[m].index);
    assert forall m, l :: 0 <= m < l < |p| ==> Before(top[m], top[l]);
    TopBeatsRest(scores, k, p);
    p
  }

  /** When every score is 0 the ranking is the input order. */
  lemma RankPositionsAllZero(scores: seq<real>, k: int)
    requires forall i :: 0 <= i < |scores| ==> scores[i] == 0.0
    ensures RankPositions(scores, k) == seq(SliceEnd(|scores|, k), i => i)
  {
    SortEqualScores(Tag(scores));
  }
}

=== FILE: retriever.dfy ===
/**
 `findRelevantDocs` and `initializeEmbeddings`: documents are scored against
 the query by cosine similarity of their embeddings, and a document without
 an embedding gets one computed from `title + " " + content` the first time
 it is scored. The source stores that embedding on the caller's document;
 here the retrieval returns the updated documents alongside the ranking.
 */
module Retriever {
  import opened Wrappers
  import opened Hashing
  import opened Vectors
  import opened Tokenizer
  import opened Embedder
  import opened Similarity
  import opened Ranking

  /** `DocumentChunk`: the embedding is optional until computed. */
  datatype DocumentChunk = DocumentChunk(title: string, content: string, embedding: Option<seq<real>>)

  /** Default of the `topK` parameter. */
  const DEFAULT_TOP_K: int := 3

  /** The text a document is embedded from: `${doc.title} ${doc.content}`. */
  function DocText(d: DocumentChunk): (t: string)
    ensures |t| == |d.title| + 1 + |d.content|
    ensures t[..|d.title|] == d.title && t[|d.title|] == ' ' && t[|d.title| + 1..] == d.content
  {
    d.title + " " + d.content
  }

  /** `if (!doc.embedding) doc.embedding = ...`: a document keeps the
      embedding it has; one without gets the embedding of its text; title
      and content never change. */
  function Memoize(d: DocumentChunk, sqrt: real -> real): (d': DocumentChunk)
    requires IsSqrt(sqrt)
    ensures d'.title == d.title && d'.content == d.content
    ensures d'.embedding.Some?
    ensures d.embedding.Some? ==> d' == d
    ensures d.embedding.None? ==> d'.embedding == Some(Embed(DocText(d), sqrt))
  {
    match d.embedding
    case Some(_) => d
    case None => d.(embedding := Some(Embed(DocText(d), sqrt)))
  }

  /** The documents after `documents.map(...)` has filled in their embeddings. */
  function MemoizeAll(docs: seq<DocumentChunk>, sqrt: real -> real): (r: seq<DocumentChunk>)
    requires IsSqrt(sqrt)
    ensures |r| == |docs|
    ensures forall i :: 0 <= i < |docs| ==> r[i] == Memoize(docs[i], sqrt)
  {
    seq(|docs|, i requires 0 <= i < |docs| => Memoize(docs[i], sqrt))
  }

  /** Filling in embeddings a second time changes nothing. */
  lemma MemoizeAllIdempotent(docs: seq<DocumentChunk>, sqrt: real -> real)
    requires IsSqrt(sqrt)
    ensures MemoizeAll(MemoizeAll(docs, sqrt), sqrt) == MemoizeAll(docs, sqrt)
  {
  }

  /** The similarity of a document with an embedding to the query. */
  function Score(query: string, d: DocumentChunk, sqrt: real -> real): real
    requires IsSqrt(sqrt)
    requires d.embedding.Some?
  {
    Cosine(Embed(query, sqrt), d.embedding.value, sqrt)
  }

  predicate AllEmbedded(docs: seq<DocumentChunk>) {
    forall i :: 0 <= i < |docs| ==> docs[i].embedding.Some?
  }

  /** The `scores` array of the source, without the documents. */
  function Scores(query: string, docs: seq<DocumentChunk>, sqrt: real -> real): (s: seq<real>)
    requires IsSqrt(sqrt)
    requires AllEmbedded(docs)
    ensures |s| == |docs|
    ensures forall i :: 0 <= i < |docs| ==> s[i] == Score(query, docs[i], sqrt)
  {
    seq(|docs|, i requires 0 <= i < |docs| => Score(query, docs[i], sqrt))
  }

  /** The outcome of a retrieval: the ranked documents, their positions in
      the input, and the input documents with their embeddings filled in. */
  datatype Retrieval = Retrieval(ranked: seq<DocumentChunk>, positions: seq<nat>, documents: seq<DocumentChunk>)

  /** `findRelevantDocs(query, documents, topK)`. The documents come back
      with embeddings filled in where missing and otherwise unchanged; the
      ranking holds `topK` of them (all when `topK` is at least the count;
      a negative `topK` counts back from the end, as `slice` does), each
      drawn from the input at a distinct position, in descending score with
      ties in input order, and each scoring at least as well as any document
      left out. */
  function FindRelevantDocs(query: string, documents: seq<DocumentChunk>, topK: int, sqrt: real -> real): (r: Retrieval)
    requires IsSqrt(sqrt)
    ensures r.documents == MemoizeAll(documents, sqrt)
    ensures |r.ranked| == |r.positions| == SliceEnd(|documents|, topK)
    ensures 0 <= topK ==> |r.ranked| == if topK < |documents| then topK else |documents|
    ensures AllDifferent(r.positions)
    ensures forall k :: 0 <= k < |r.positions| ==>
      r.positions[k] < |documents| && r.ranked[k] == r.documents[r.positions[k]]
    ensures AllEmbedded(r.documents) && AllEmbedded(r.ranked)
    ensures forall k, l :: 0 <= k < l < |r.positions| ==>
      Precedes(Scores(query, r.documents, sqrt), r.positions[k], r.positions[l])
    ensures forall k, i :: 0 <= k < |r.positions| && 0 <= i < |documents| && i !in r.positions ==>
      Precedes(Scores(query, r.documents, sqrt), r.positions[k], i)
  {
    var docs := MemoizeAll(documents, sqrt);
    var p := RankPositions(Scores(query, docs, sqrt), topK);
    Retrieval(seq(|p|, k requires 0 <= k < |p| => docs[p[k]]), p, docs)
  }

  /** `findRelevantDocs(query, documents)` without `topK`: the default of 3
      keeps the three best documents, or all of them when there are fewer. */
  function FindRelevantDocsDefault(query: string, documents: seq<DocumentChunk>, sqrt: real -> real): (r: Retrieval)
    requires IsSqrt(sqrt)
    ensures r == FindRelevantDocs(query, documents, DEFAULT_TOP_K, sqrt)
    ensures |r.ranked| == if |documents| < 3 then |documents| else 3
  {
    FindRelevantDocs(query, documents, DEFAULT_TOP_K, sqrt)
  }

  /** The ranked documents in terms of their scores: non-increasing along
      the result, equal scores in input order, and no document left out
      scores higher than one kept. */
  lemma RankedByScore(query: string, documents: seq<DocumentChunk>, topK: int, sqrt: real -> real)
    requires IsSqrt(sqrt)
    ensures var r := FindRelevantDocs(query, documents, topK, sqrt);
      forall k, l :: 0 <= k < l < |r.ranked| ==>
        Score(query, r.ranked[k], sqrt) >= Score(query, r.ranked[l], sqrt) &&
        (Score(query, r.ranked[k], sqrt) == Score(query, r.ranked[l], sqrt) ==> r.positions[k] < r.positions[l])
    ensures var r := FindRelevantDocs(query, documents, topK, sqrt);
      forall k, i :: 0 <= k < |r.ranked| && 0 <= i < |documents| && i !in r.positions ==>
        Score(query, r.ranked[k], sqrt) >= Score(query, r.documents[i], sqrt)
  {
    var r := FindRelevantDocs(query, documents, topK, sqrt);
    RetrievalWellRanked(query, documents, topK, sqrt);
    RankedScoresOrder(query, r, |documents|, sqrt);
    RankedScoresRest(query, r, |documents|, sqrt);
  }

  lemma RetrievalWellRanked(query: string, documents: seq<DocumentChunk>, topK: int, sqrt: real -> real)
    requires IsSqrt(sqrt)
    ensures WellRanked(query, FindRelevantDocs(query, documents, topK, sqrt), |documents|, sqrt)
  {
  }

  /** What FindRelevantDocs promises of a retrieval, in terms of positions. */
  predicate WellRanked(query: string, r: Retrieval, n: nat, sqrt: real -> real)
    requires IsSqrt(sqrt)
  {
    && |r.documents| == n
    && AllEmbedded(r.documents)
    && |r.ranked| == |r.positions|
    && (forall k :: 0 <= k < |r.positions| ==>
          r.positions[k] < n && r.ranked[k] == r.documents[r.positions[k]])
    && (forall k, l :: 0 <= k < l < |r.positions| ==>
          Precedes(Scores(query, r.documents, sqrt), r.positions[k], r.positions[l]))
    && (forall k, i :: 0 <= k < |r.positions| && 0 <= i < n && i !in r.positions ==>
          Precedes(Scores(query, r.documents, sqrt), r.positions[k], i))
  }

  lemma RankedScoresOrder(query: string, r: Retrieval, n: nat, sqrt: real -> real)
    requires IsSqrt(sqrt)
    requires WellRanked(query, r, n, sqrt)
    ensures forall k, l :: 0 <= k < l < |r.ranked| ==>
      Score(query, r.ranked[k], sqrt) >= Score(query, r.ranked[l], sqrt) &&
      (Score(query, r.ranked[k], sqrt) == Score(query, r.ranked[l], sqrt) ==> r.positions[k] < r.positions[l])
  {
    var sc := Scores(query, r.documents, sqrt);
    assert forall k :: 0 <= k < |r.ranked| ==> sc[r.positions[k]] == Score(query, r.ranked[k], sqrt);
  }

  lemma RankedScoresRest(query: string, r: Retrieval, n: nat, sqrt: real -> real)
    requires IsSqrt(sqrt)
    requires WellRanked(query, r, n, sqrt)
    ensures forall k, i :: 0 <= k < |r.ranked| && 0 <= i < n && i !in r.positions ==>
      Score(query, r.ranked[k], sqrt) >= Score(query, r.documents[i], sqrt)
  {
    var sc := Scores(query, r.documents, sqrt);
    forall k, i | 0 <= k < |r.ranked| && 0 <= i < n && i !in r.positions
      ensures Score(query, r.ranked[k], sqrt) >= Score(query, r.documents[i], sqrt)
    {
      assert Precedes(sc, r.positions[k], i);
      assert sc[r.positions[k]] == Score(query, r.ranked[k], sqrt);
    }
  }

  /** A query without tokens scores every document 0, so the stable sort
      keeps the input order and the first `topK` documents come back. */
  lemma EmptyQueryKeepsOrder(query: string, documents: seq<DocumentChunk>, topK: int, sqrt: real -> real)
    requires IsSqrt(sqrt)
    requires !HasLongRun(query)
    ensures FindRelevantDocs(query, documents, topK, sqrt).positions == seq(SliceEnd(|documents|, topK), i => i)
    ensures FindRelevantDocs(query, documents, topK, sqrt).ranked == MemoizeAll(documents, sqrt)[..SliceEnd(|documents|, topK)]
  {
    var docs := MemoizeAll(documents, sqrt);
    EmbedZeroIff(query, sqrt);
    var scores := Scores(query, docs, sqrt);
    assert forall i :: 0 <= i < |scores| ==> scores[i] == 0.0;
    RankPositionsAllZero(scores, topK);
  }

  /** Retrieval on the documents a retrieval returned neither changes them
      further nor changes the ranking: the filled-in embeddings are the ones
      that would be computed anyway. */
  lemma RetrievalIsMemoized(query: string, query': string, documents: seq<DocumentChunk>, topK: int, topK': int, sqrt: real -> real)
    requires IsSqrt(sqrt)
    ensures var r := FindRelevantDocs(query', documents, topK', sqrt);
      FindRelevantDocs(query, r.documents, topK, sqrt) == FindRelevantDocs(query, documents, topK, sqrt)
  {
    MemoizeAllIdempotent(documents, sqrt);
  }

  /** `initializeEmbeddings(documents)`: a copy of every document with a
      freshly computed embedding of its text, replacing any it had. */
  function InitializeEmbeddings(documents: seq<DocumentChunk>, sqrt: real -> real): (r: seq<DocumentChunk>)
    requires IsSqrt(sqrt)
    ensures |r| == |documents|
    ensures forall i :: 0 <= i < |r| ==> r[i].title == documents[i].title && r[i].content == documents[i].content
    ensures forall i :: 0 <= i < |r| ==> r[i].embedding == Some(Embed(DocText(documents[i]), sqrt))
    ensures forall i :: 0 <= i < |r| ==> |r[i].embedding.value| == DIM
  {
    seq(|documents|, i requires 0 <= i < |documents| =>
      documents[i].(embedding := Some(Embed(DocText(documents[i]), sqrt))))
  }

  /** Initialising agrees with the embeddings retrieval fills in for
      documents that had none, and retrieval leaves initialised documents
      as they are. */
  lemma InitializeAgreesWithMemoize(documents: seq<DocumentChunk>, query: string, topK: int, sqrt: real -> real)
    requires IsSqrt(sqrt)
    ensures (forall i :: 0 <= i < |documents| ==> documents[i].embedding.None?) ==>
      InitializeEmbeddings(documents, sqrt) == MemoizeAll(documents, sqrt)
    ensures FindRelevantDocs(query, InitializeEmbeddings(documents, sqrt), topK, sqrt).documents
         == InitializeEmbeddings(documents, sqrt)
  {
  }

  /** Initialising twice is initialising once. */
  lemma InitializeIdempotent(documents: seq<DocumentChunk>, sqrt: real -> real)
    requires IsSqrt(sqrt)
    ensures InitializeEmbeddings(InitializeEmbeddings(documents, sqrt), sqrt) == InitializeEmbeddings(documents, sqrt)
  {
    var r := InitializeEmbeddings(documents, sqrt);
    assert forall i :: 0 <= i < |r| ==> DocText(r[i]) == DocText(documents[i]);
  }
}

=== FILE: routes.dfy ===
/**
 `buildUrl(path, params)`: prefix the path with the configured API base URL
 and, for each parameter in entry order, replace the first occurrence of
 `:key` in the URL built so far with the parameter's value as a string.

 The base URL comes from the build environment; here it is a parameter
 (`None` when the variable is unset). The replacement is `String.prototype.replace`
 with a string pattern, which inserts the replacement text after expanding
 the `$` patterns of section 22.1.3.19.1 (GetSubstitution) of ECMA-262:
 `$$`, `$&`, `` $` `` and `$'`. `BuildUrlAsWritten` models that; `BuildUrl` is
 the literal substitution the function evidently means.
 */
module Routes {
  import opened Wrappers

  /** `string | number`; numbers are modelled as integers. */
  datatype ParamValue = Str(s: string) | Num(n: int)

  /** `import.meta.env.VITE_API_BASE_URL || ''`: an unset or empty variable
      gives the empty base. */
  function BaseUrl(env: Option<string>): (b: string)
    ensures env.None? ==> b == ""
    ensures env.Some? ==> b == env.value
  {
    match env
    case None => ""
    case Some(u) => u
  }

  function DigitChar(d: nat): (c: char)
    requires d < 10
    ensures '0' <= c <= '9'
  {
    ('0' as int + d) as char
  }

  function DigitValue(c: char): int {
    c as int - '0' as int
  }

  /** Decimal digits of a natural number, without leading zeros. */
  function Digits(n: nat): (s: string)
    ensures |s| >= 1
    ensures forall i :: 0 <= i < |s| ==> '0' <= s[i] <= '9'
    ensures |s| > 1 ==> s[0] != '0'
  {
    if n < 10 then [DigitChar(n)] else Digits(n / 10) + [DigitChar(n % 10)]
  }

  /** `String(n)` for an integer `n`. */
  function NumberToString(n: int): (s: string)
    ensures |s| >= 1
    ensures forall i :: 0 <= i < |s| ==> '0' <= s[i] <= '9' || s[i] == '-'
    ensures s[0] == '-' <==> n < 0
  {
    if n < 0 then "-" + Digits(-n) else Digits(n)
  }

  /** The value of a string of decimal digits. */
  function ParseDigits(s: string): int {
    if |s| == 0 then 0 else ParseDigits(s[..|s| - 1]) * 10 + DigitValue(s[|s| - 1])
  }

  function ParseNumber(s: string): int {
    if |s| > 0 && s[0] == '-' then -ParseDigits(s[1..]) else ParseDigits(s)
  }

  lemma {:induction false} ParseDigitsOfDigits(n: nat)
    ensures ParseDigits(Digits(n)) == n
  {
    var s := Digits(n);
    if n >= 10 {
      assert s[..|s| - 1] == Digits(n / 10);
      ParseDigitsOfDigits(n / 10);
      assert DigitValue(s[|s| - 1]) == n % 10;
      assert n == (n / 10) * 10 + n % 10;
    } else {
      assert s[..0] == [];
    }
  }

  /** Reading back the decimal form of a number gives the number. */
  lemma NumberToStringRoundTrip(n: int)
    ensures ParseNumber(NumberToString(n)) == n
  {
    if n < 0 {
      assert NumberToString(n)[1..] == Digits(-n);
      ParseDigitsOfDigits(-n);
    } else {
      ParseDigitsOfDigits(n);
    }
  }

  /** `String(value)`. */
  function ValueString(v: ParamValue): string {
    match v
    case Str(s) => s
    case Num(n) => NumberToString(n)
  }

  /** `pat` occurs in `s` starting at position `i`. */
  predicate OccursAt(s: string, pat: string, i: int) {
    0 <= i && i + |pat| <= |s| && s[i..i + |pat|] == pat
  }

  /** The first position at or after `from` where `pat` occurs. */
  function IndexFrom(s: string, pat: string, from: nat): (r: Option<nat>)
    requires from <= |s|
    ensures r.Some? ==> from <= r.value && OccursAt(s, pat, r.value)
    ensures r.Some? ==> forall j :: from <= j < r.value ==> !OccursAt(s, pat, j)
    ensures r.None? ==> forall j :: from <= j ==> !OccursAt(s, pat, j)
    decreases |s| - from
  {
    if OccursAt(s, pat, from) then Some(from)
    else if from + |pat| >= |s| then
      assert forall j :: from < j ==> !OccursAt(s, pat, j);
      None
    else IndexFrom(s, pat, from + 1)
  }

  /** `s.indexOf(pat)`: the first occurrence of `pat` in `s`, if any. */
  function IndexOf(s: string, pat: string): (r: Option<nat>)
    ensures r.Some? ==> OccursAt(s, pat, r.value) && forall j :: 0 <= j < r.value ==> !OccursAt(s, pat, j)
    ensures r.None? ==> forall j :: !OccursAt(s, pat, j)
  {
    IndexFrom(s, pat, 0)
  }

  /** `s.includes(pat)`: whether `pat` occurs anywhere in `s`. */
  predicate Includes(s: string, pat: string): (b: bool)
    ensures b <==> exists j :: OccursAt(s, pat, j)
  {
    IndexOf(s, pat).Some?
  }

  /** GetSubstitution for a string pattern (no capture groups): the text
      inserted for a match of `matched` at `position` of `str` when the
      replacement is `rep`. */
  function Substitution(matched: string, str: string, position: nat, rep: string): (r: string)
    requires position + |matched| <= |str|
    ensures '$' !in rep ==> r == rep
    ensures rep == "$$" ==> r == "$"
    ensures rep == "$&" ==> r == matched
    ensures rep == "$`" ==> r == str[..position]
    ensures rep == "$'" ==> r == str[position + |matched|..]
    ensures rep == "$" ==> r == "$"
  {
    if |rep| == 0 then ""
    else if rep[0] == '$' && |rep| >= 2 && rep[1] == '$' then
      "$" + Substitution(matched, str, position, rep[2..])
    else if rep[0] == '$' && |rep| >= 2 && rep[1] == '&' then
      matched + Substitution(matched, str, position, rep[2..])
    else if rep[0] == '$' && |rep| >= 2 && rep[1] == '`' then
      str[..position] + Substitution(matched, str, position, rep[2..])
    else if rep[0] == '$' && |rep| >= 2 && rep[1] == '\'' then
      str[position + |matched|..] + Substitution(matched, str, position, rep[2..])
    else
      assert rep == [rep[0]] + rep[1..];
      [rep[0]] + Substitution(matched, str, position, rep[1..])
  }

  /** A character other than `$` is copied. */
  lemma SubstitutionPlainStep(matched: string, str: string, position: nat, rep: string)
    requires position + |matched| <= |str|
    requires |rep| > 0 && rep[0] != '$'
    ensures Substitution(matched, str, position, rep) == [rep[0]] + Substitution(matched, str, position, rep[1..])
  {
  }

  /** Text without `$` is copied through, whatever follows it. */
  lemma {:induction false} SubstitutionLiteralPrefix(matched: string, str: string, position: nat, p: string, t: string)
    requires position + |matched| <= |str|
    requires '$' !in p
    ensures Substitution(matched, str, position, p + t) == p + Substitution(matched, str, position, t)
  {
    if |p| > 0 {
      assert '$' !in p[1..] by {
        assert forall c :: c in p[1..] ==> c in p;
      }
      SubstitutionLiteralPrefix(matched, str, position, p[1..], t);
      LiteralPrefixStep(matched, str, position, p, t);
    } else {
      assert p + t == t;
    }
  }

  /** The inductive step of SubstitutionLiteralPrefix. */
  lemma LiteralPrefixStep(matched: string, str: string, position: nat, p: string, t: string)
    requires position + |matched| <= |str|
    requires |p| > 0 && p[0] != '$'
    requires Substitution(matched, str, position, p[1..] + t) == p[1..] + Substitution(matched, str, position, t)
    ensures Substitution(matched, str, position, p + t) == p + Substitution(matched, str, position, t)
  {
    var rep, p', rest := p + t, p[1..], Substitution(matched, str, position, t);
    assert rep[0] == p[0] && rep[1..] == p' + t;
    SubstitutionPlainStep(matched, str, position, rep);
    assert [p[0]] + (p' + rest) == ([p[0]] + p') + rest;
    assert p == [p[0]] + p';
  }

  /** A two-character pattern `$$`, `$&`, `` $` `` or `$'` is expanded on its
      own and the rest of the template after it. */
  lemma SubstitutionPattern(matched: string, str: string, position: nat, q: string, t: string)
    requires position + |matched| <= |str|
    requires q == "$$" || q == "$&" || q == "$`" || q == "$'"
    ensures Substitution(matched, str, position, q + t)
         == Substitution(matched, str, position, q) + Substitution(matched, str, position, t)
  {
    var rep := q + t;
    assert rep[0] == '$' && rep[1] == q[1];
    assert rep[2..] == t;
  }

  /** A `$` that starts no pattern stands for itself. */
  lemma SubstitutionLoneDollar(matched: string, str: string, position: nat, t: string)
    requires position + |matched| <= |str|
    requires t == [] || (t[0] != '$' && t[0] != '&' && t[0] != '`' && t[0] != '\'')
    ensures Substitution(matched, str, position, "$" + t) == "$" + Substitution(matched, str, position, t)
  {
    var rep := "$" + t;
    assert rep[0] == '$';
    assert rep[1..] == t;
    assert |rep| >= 2 ==> rep[1] == t[0];
  }

  /** Whether the replacement text is inserted literally or, as
      `String.prototype.replace` does, after `$`-pattern expansion. */
  datatype ReplaceMode = Literal | Expanding

  /** Replace the first occurrence of `pat` in `s` by `rep`; without an
      occurrence `s` is returned. Text before and after the occurrence is
      kept, and no earlier position holds `pat`. */
  function ReplaceFirst(mode: ReplaceMode, s: string, pat: string, rep: string): (r: string)
    ensures IndexOf(s, pat).None? ==> r == s
    ensures mode == Literal && IndexOf(s, pat).Some? ==>
      var i := IndexOf(s, pat).value;
      |r| == |s| - |pat| + |rep| && r[..i] == s[..i] && r[i..i + |rep|] == rep && r[i + |rep|..] == s[i + |pat|..]
  {
    match IndexOf(s, pat)
    case None => s
    case Some(i) =>
      var inserted := if mode == Literal then rep else Substitution(pat, s, i, rep);
      var r := s[..i] + inserted + s[i + |pat|..];
      assert mode == Literal ==> r[..i] == s[..i] && r[i..i + |rep|] == rep && r[i + |rep|..] == s[i + |pat|..];
      r
  }

  /** One iteration of the `forEach`: replace `:key` if the URL includes it. */
  function ApplyParam(mode: ReplaceMode, url: string, key: string, value: ParamValue): (r: string)
    ensures !Includes(url, ":" + key) ==> r == url
  {
    if Includes(url, ":" + key) then ReplaceFirst(mode, url, ":" + key, ValueString(value)) else url
  }

  /** The `forEach` over `Object.entries(params)`, in entry order. */
  function ApplyParams(mode: ReplaceMode, url: string, params: seq<(string, ParamValue)>): (r: string)
    ensures ':' !in url ==> r == url
    decreases |params|
  {
    if |params| == 0 then url
    else
      var key := params[0].0;
      NoColonNoPlaceholder(url, key);
      ApplyParams(mode, ApplyParam(mode, url, key, params[0].1), params[1..])
  }

  /** Every placeholder starts with `:`, so a text without `:` holds none. */
  lemma NoColonNoPlaceholder(url: string, key: string)
    ensures ':' !in url ==> !Includes(url, ":" + key)
  {
    forall j | OccursAt(url, ":" + key, j)
      ensures ':' in url
    {
      assert url[j] == url[j..j + |key| + 1][0];
    }
  }

  function BuildUrlWith(mode: ReplaceMode, env: Option<string>, path: string, params: Option<seq<(string, ParamValue)>>): string {
    var url := BaseUrl(env) + path;
    match params
    case None => url
    case Some(ps) => ApplyParams(mode, url, ps)
  }

  /** `buildUrl` as written: values pass through `$`-pattern expansion. */
  function BuildUrlAsWritten(env: Option<string>, path: string, params: Option<seq<(string, ParamValue)>>): (url: string)
    ensures params.None? ==> url == BaseUrl(env) + path
  {
    BuildUrlWith(Expanding, env, path, params)
  }

  /** `buildUrl` with values inserted literally. */
  function BuildUrl(env: Option<string>, path: string, params: Option<seq<(string, ParamValue)>>): (url: string)
    ensures params.None? || params == Some([]) ==> url == BaseUrl(env) + path
    ensures params.Some? && |params.value| == 1 && !Includes(BaseUrl(env) + path, ":" + params.value[0].0) ==>
      url == BaseUrl(env) + path
    ensures params.Some? && |params.value| == 1 && Includes(BaseUrl(env) + path, ":" + params.value[0].0) ==>
      var u, key := BaseUrl(env) + path, params.value[0].0;
      var i := IndexOf(u, ":" + key).value;
      url == u[..i] + ValueString(params.value[0].1) + u[i + |key| + 1..]
  {
    BuildUrlAbsent(env, path, params);
    BuildUrlPresent(env, path, params);
    BuildUrlWith(Literal, env, path, params)
  }

  /** The URL with the value `v` in place of the placeholder `:key` that
      starts at position `i`. */
  function FillAt(u: string, key: string, v: ParamValue, i: nat): string
    requires i + |key| + 1 <= |u|
  {
    u[..i] + ValueString(v) + u[i + |key| + 1..]
  }

  /** With parameters, `buildUrl` applies them to the base followed by
      the path. */
  lemma BuildUrlWithSome(mode: ReplaceMode, env: Option<string>, path: string, params: Option<seq<(string, ParamValue)>>)
    requires params.Some?
    ensures BuildUrlWith(mode, env, path, params) == ApplyParams(mode, BaseUrl(env) + path, params.value)
  {
  }

  /** BuildUrl with one parameter whose placeholder is absent. */
  lemma BuildUrlAbsent(env: Option<string>, path: string, params: Option<seq<(string, ParamValue)>>)
    ensures params.Some? && |params.value| == 1 && !Includes(BaseUrl(env) + path, ":" + params.value[0].0) ==>
      BuildUrlWith(Literal, env, path, params) == BaseUrl(env) + path
  {
    if params.Some? && |params.value| == 1 {
      BuildUrlWithSome(Literal, env, path, params);
      OneParam(BaseUrl(env) + path, params.value);
    }
  }

  /** BuildUrl with one parameter whose placeholder is present. */
  lemma BuildUrlPresent(env: Option<string>, path: string, params: Option<seq<(string, ParamValue)>>)
    ensures params.Some? && |params.value| == 1 && Includes(BaseUrl(env) + path, ":" + params.value[0].0) ==>
      BuildUrlWith(Literal, env, path, params)
        == FillAt(BaseUrl(env) + path, params.value[0].0, params.value[0].1, IndexOf(BaseUrl(env) + path, ":" + params.value[0].0).value)
  {
    if params.Some? && |params.value| == 1 {
      BuildUrlWithSome(Literal, env, path, params);
      OneParam(BaseUrl(env) + path, params.value);
    }
  }

  /** A one-entry parameter list replaces the first occurrence of its
      placeholder, if any. */
  lemma OneParam(u: string, ps: seq<(string, ParamValue)>)
    requires |ps| == 1
    ensures !Includes(u, ":" + ps[0].0) ==> ApplyParams(Literal, u, ps) == u
    ensures Includes(u, ":" + ps[0].0) ==>
      ApplyParams(Literal, u, ps) == FillAt(u, ps[0].0, ps[0].1, IndexOf(u, ":" + ps[0].0).value)
  {
    var key, value := ps[0].0, ps[0].1;
    assert ps == [(key, value)];
    SingleParam(Literal, u, key, value);
    if Includes(u, ":" + key) {
      FirstPlaceholderReplaced(u, key, value, IndexOf(u, ":" + key).value);
    }
  }

  /** Without parameters, or with none in the map, the URL is the base
      followed by the path. */
  lemma BuildUrlNoParams(mode: ReplaceMode, env: Option<string>, path: string)
    ensures BuildUrlWith(mode, env, path, None) == BaseUrl(env) + path
    ensures BuildUrlWith(mode, env, path, Some([])) == BaseUrl(env) + path
  {
  }

  /** Parameters apply one after another, each to the result of the ones
      before it. */
  lemma {:induction false} ApplyParamsAppend(mode: ReplaceMode, url: string, ps: seq<(string, ParamValue)>, qs: seq<(string, ParamValue)>)
    ensures ApplyParams(mode, url, ps + qs) == ApplyParams(mode, ApplyParams(mode, url, ps), qs)
    decreases |ps|
  {
    if |ps| == 0 {
      assert ps + qs == qs;
    } else {
      assert (ps + qs)[0] == ps[0];
      assert (ps + qs)[1..] == ps[1..] + qs;
      ApplyParamsAppend(mode, ApplyParam(mode, url, ps[0].0, ps[0].1), ps[1..], qs);
    }
  }

  /** A parameter whose placeholder is absent leaves the URL as it is. */
  lemma AbsentKeyUnchanged(mode: ReplaceMode, url: string, key: string, value: ParamValue)
    requires forall j :: !OccursAt(url, ":" + key, j)
    ensures ApplyParam(mode, url, key, value) == url
  {
  }

  /** A parameter whose placeholder first occurs at `i` puts its value there
      and keeps the text on both sides. */
  lemma FirstPlaceholderReplaced(url: string, key: string, value: ParamValue, i: nat)
    requires OccursAt(url, ":" + key, i)
    requires forall j :: 0 <= j < i ==> !OccursAt(url, ":" + key, j)
    ensures ApplyParam(Literal, url, key, value) == url[..i] + ValueString(value) + url[i + |key| + 1..]
  {
    var r := ApplyParam(Literal, url, key, value);
    var v := ValueString(value);
    assert IndexOf(url, ":" + key) == Some(i);
    assert r == r[..i] + r[i..i + |v|] + r[i + |v|..];
  }

  /** `pat` first occurs at `i` when it occurs there and its first
      character appears nowhere before. */
  lemma FirstOccurrence(s: string, pat: string, i: nat)
    requires |pat| > 0 && OccursAt(s, pat, i)
    requires forall j :: 0 <= j < i ==> s[j] != pat[0]
    ensures IndexOf(s, pat) == Some(i)
  {
    forall j | 0 <= j < i
      ensures !OccursAt(s, pat, j)
    {
      assert j + |pat| <= |s| ==> s[j..j + |pat|][0] == s[j];
    }
  }

  /** Matching is textual: the parameter `id` fills the start of `:idx`. */
  lemma PlaceholderPrefixMatches()
    ensures BuildUrl(None, "/items/:idx", Some([("id", Str("7"))])) == "/items/7x"
  {
    var url := "/items/:idx";
    assert url[7..10] == ":id";
    FirstOccurrence(url, ":id", 7);
    FirstPlaceholderReplaced(url, "id", Str("7"), 7);
    var r := ApplyParam(Literal, url, "id", Str("7"));
    assert r == "/items/7x" by {
      assert url[..7] + "7" + url[10..] == "/items/7x";
    }
    var ps := [("id", Str("7"))];
    assert ps[1..] == [];
    assert ApplyParams(Literal, url, ps) == ApplyParams(Literal, r, ps[1..]);
    assert BaseUrl(None) + url == url;
    assert BuildUrl(None, url, Some(ps)) == ApplyParams(Literal, BaseUrl(None) + url, ps);
  }

  /** On values without `$` (all numbers among them) the function as
      written agrees with literal substitution. */
  lemma {:induction false} AsWrittenAgreesWithoutDollar(url: string, ps: seq<(string, ParamValue)>)
    requires forall k :: 0 <= k < |ps| ==> '$' !in ValueString(ps[k].1)
    ensures ApplyParams(Expanding, url, ps) == ApplyParams(Literal, url, ps)
    decreases |ps|
  {
    if |ps| > 0 {
      var key, value := ps[0].0, ps[0].1;
      assert ApplyParam(Expanding, url, key, value) == ApplyParam(Literal, url, key, value);
      AsWrittenAgreesWithoutDollar(ApplyParam(Literal, url, key, value), ps[1..]);
    }
  }

  lemma NumbersHaveNoDollar(n: int)
    ensures '$' !in ValueString(Num(n))
  {
  }

  /** Numeric parameters come out the same as written and with literal
      substitution: only a string value can carry a `$`. */
  lemma BuildUrlAgreesOnNumbers(env: Option<string>, path: string, ps: seq<(string, ParamValue)>)
    requires forall k :: 0 <= k < |ps| ==> ps[k].1.Num?
    ensures BuildUrlAsWritten(env, path, Some(ps)) == BuildUrl(env, path, Some(ps))
  {
    forall k | 0 <= k < |ps|
      ensures '$' !in ValueString(ps[k].1)
    {
      NumbersHaveNoDollar(ps[k].1.n);
    }
    AsWrittenAgreesWithoutDollar(BaseUrl(env) + path, ps);
  }

  /** A one-entry parameter list is a single replacement. */
  lemma SingleParam(mode: ReplaceMode, url: string, key: string, value: ParamValue)
    ensures ApplyParams(mode, url, [(key, value)]) == ApplyParam(mode, url, key, value)
  {
    assert [(key, value)][1..] == [];
  }

  /** As written, a value `$&` is expanded to the placeholder it was meant
      to fill, so the URL comes back unchanged whether or not the
      placeholder occurs. */
  lemma AmpersandValueKeepsUrl(url: string, key: string)
    ensures ApplyParam(Expanding, url, key, Str("$&")) == url
  {
    var pat := ":" + key;
    if Includes(url, pat) {
      var i := IndexOf(url, pat).value;
      assert url[..i] + pat + url[i + |pat|..] == url by {
        assert url[i..i + |pat|] == pat;
        assert url == url[..i] + url[i..i + |pat|] + url[i + |pat|..];
      }
    }
  }

  /** A value `$&` leaves the URL with its placeholder where literal
      substitution inserts the value. */
  lemma DollarValueCounterexample()
    ensures BuildUrlAsWritten(None, "/a/:id", Some([("id", Str("$&"))])) == "/a/:id"
    ensures BuildUrl(None, "/a/:id", Some([("id", Str("$&"))])) == "/a/$&"
  {
    DollarAsWritten();
    DollarLiteral();
  }

  /** The as-written half of DollarValueCounterexample. */
  lemma DollarAsWritten()
    ensures BuildUrlAsWritten(None, "/a/:id", Some([("id", Str("$&"))])) == "/a/:id"
  {
    var url := "/a/:id";
    assert BaseUrl(None) + url == url;
    AmpersandValueKeepsUrl(url, "id");
    SingleParam(Expanding, url, "id", Str("$&"));
  }

  /** The literal half of DollarValueCounterexample. */
  lemma DollarLiteral()
    ensures BuildUrl(None, "/a/:id", Some([("id", Str("$&"))])) == "/a/$&"
  {
    var url := "/a/:id";
    assert url[3..6] == ":id";
    FirstOccurrence(url, ":id", 3);
    FirstPlaceholderReplaced(url, "id", Str("$&"), 3);
    var r := ApplyParam(Literal, url, "id", Str("$&"));
    assert r == "/a/$&" by {
      assert url[..3] + "$&" + url[6..] == "/a/$&";
    }
    SingleParam(Literal, url, "id", Str("$&"));
    assert BaseUrl(None) + url == url;
  }

}

=== FILE: seqs.dfy ===
/** Small helpers on sequences shared by the other modules. */
module Seqs {

  function Last<T>(s: seq<T>): T
    requires |s| > 0
  {
    s[|s| - 1]
  }
}

=== FILE: similarity.dfy ===
/**
 Cosine similarity of two vectors, with the source's two guards: vectors of
 different lengths, and vectors of zero magnitude, score 0.
 */
module Similarity {
  import opened Vectors

  /** `cosineSimilarity(a, b)`: `dot / (|a| * |b|)`, or 0 when the lengths
      differ or either magnitude is 0. On vectors of equal length the score
      times both magnitudes is the dot product, and it always lies in [-1, 1]. */
  function Cosine(a: seq<real>, b: seq<real>, sqrt: real -> real): (r: real)
    requires IsSqrt(sqrt)
    ensures |a| != |b| ==> r == 0.0
    ensures |a| == |b| && (IsZero(a) || IsZero(b)) ==> r == 0.0
    ensures |a| == |b| ==> Mul(r, Mul(sqrt(SumSq(a)), sqrt(SumSq(b)))) == Dot(a, b)
    ensures -1.0 <= r <= 1.0
  {
    if |a| != |b| then 0.0
    else
      var ma, mb := sqrt(SumSq(a)), sqrt(SumSq(b));
      SqrtFacts(sqrt, SumSq(a));
      SqrtFacts(sqrt, SumSq(b));
      if ma == 0.0 || mb == 0.0 then
        MulSign(0.0, Mul(ma, mb));
        MulSign(ma, mb);
        assert IsZero(a) || IsZero(b);
        0.0
      else
        var n := Mul(ma, mb);
        MulSign(ma, mb);
        var r := Dot(a, b) / n;
        CauchySchwarz(a, b);
        SquareOfProduct(ma, mb);
        assert Mul(r, n) == Dot(a, b);
        BoundedQuotient(Dot(a, b), n, r);
        r
  }

  lemma SquareOfProduct(x: real, y: real)
    ensures Square(Mul(x, y)) == Mul(Square(x), Square(y))
  {
    assert (x * y) * (x * y) == (x * x) * (y * y);
  }

  /** A quotient whose numerator is, in square, at most the square of its
      positive denominator lies in [-1, 1]. */
  lemma BoundedQuotient(d: real, n: real, r: real)
    requires 0.0 < n
    requires Square(d) <= Square(n)
    requires Mul(r, n) == d
    ensures -1.0 <= r <= 1.0
  {
    if r > 1.0 {
      MulSign(r - 1.0, n);
      assert d - n == Mul(r - 1.0, n);
      SquareMonotonic(n, d);
    } else if r < -1.0 {
      MulSign(-1.0 - r, n);
      assert -d - n == Mul(-1.0 - r, n);
      SquareMonotonic(n, -d);
    }
  }

  /** The score does not depend on the order of its arguments. */
  lemma CosineSymmetric(a: seq<real>, b: seq<real>, sqrt: real -> real)
    requires IsSqrt(sqrt)
    ensures Cosine(a, b, sqrt) == Cosine(b, a, sqrt)
  {
    if |a| == |b| {
      DotSymmetric(a, b);
      assert Mul(sqrt(SumSq(a)), sqrt(SumSq(b))) == Mul(sqrt(SumSq(b)), sqrt(SumSq(a)));
    }
  }

  /** A non-zero vector scores 1 against itself. */
  lemma CosineSelf(v: seq<real>, sqrt: real -> real)
    requires IsSqrt(sqrt)
    requires !IsZero(v)
    ensures Cosine(v, v, sqrt) == 1.0
  {
    var m := sqrt(SumSq(v));
    SqrtFacts(sqrt, SumSq(v));
    DotSelf(v);
    assert Dot(v, v) == Mul(m, m);
  }

  /** Orthogonal vectors of equal length score 0. */
  lemma CosineOrthogonal(a: seq<real>, b: seq<real>, sqrt: real -> real)
    requires IsSqrt(sqrt)
    requires |a| == |b| && Dot(a, b) == 0.0
    ensures Cosine(a, b, sqrt) == 0.0
  {
    var r := Cosine(a, b, sqrt);
    var ma, mb := sqrt(SumSq(a)), sqrt(SumSq(b));
    SqrtFacts(sqrt, SumSq(a));
    SqrtFacts(sqrt, SumSq(b));
    MulSign(ma, mb);
    if !IsZero(a) && !IsZero(b) {
      assert Mul(r, Mul(ma, mb)) == 0.0;
    }
  }

  lemma DotExample()
    ensures Dot([1.0, 0.0, 0.0], [0.0, 1.0, 0.0]) == 0.0
  {
    var a, b := [1.0, 0.0, 0.0], [0.0, 1.0, 0.0];
    assert a[..2] == [1.0, 0.0] && b[..2] == [0.0, 1.0];
    assert a[..2][..1] == [1.0] && b[..2][..1] == [0.0];
    assert [1.0][..0] == [] && [0.0][..0] == [];
    assert Dot([1.0], [0.0]) == 0.0;
    assert Dot(a[..2], b[..2]) == 0.0;
  }

  /** The scores asserted by the source's own examples: orthogonal vectors
      score 0 and vectors of different lengths score 0. */
  lemma CosineExamples(sqrt: real -> real)
    requires IsSqrt(sqrt)
    ensures Cosine([1.0, 0.0, 0.0], [0.0, 1.0, 0.0], sqrt) == 0.0
    ensures Cosine([1.0, 2.0, 3.0], [1.0, 2.0], sqrt) == 0.0
  {
    DotExample();
    CosineOrthogonal([1.0, 0.0, 0.0], [0.0, 1.0, 0.0], sqrt);
  }

  /** The source's loop: accumulate the dot product and both squared
      magnitudes in one pass, then take the square roots and divide. */
  method CosineSimilarity(a: seq<real>, b: seq<real>, sqrt: real -> real) returns (r: real)
    requires IsSqrt(sqrt)
    ensures r == Cosine(a, b, sqrt)
  {
    if |a| != |b| {
      return 0.0;
    }
    var dot, magA, magB := 0.0, 0.0, 0.0;
    for i := 0 to |a|
      invariant dot == Dot(a[..i], b[..i])
      invariant magA == SumSq(a[..i])
      invariant magB == SumSq(b[..i])
    {
      assert a[..i + 1][..i] == a[..i] && b[..i + 1][..i] == b[..i];
      dot := dot + Mul(a[i], b[i]);
      magA := magA + Square(a[i]);
      magB := magB + Square(b[i]);
    }
    assert a[..|a|] == a && b[..|b|] == b;
    magA := sqrt(magA);
    magB := sqrt(magB);
    if magA == 0.0 || magB == 0.0 {
      return 0.0;
    }
    r := dot / Mul(magA, magB);
  }
}

=== FILE: tokenizer.dfy ===
/**
 Tokenising of the embedder: the text is lower-cased, split on every run of
 non-word characters (`split(/\W+/)`), and pieces of length at most 2 are
 dropped. The alphabet of word characters is the ASCII one, `[A-Za-z0-9_]`,
 which is what `\W` means for a regular expression without the unicode flag.
 */
module Tokenizer {
  import opened Seqs

  predicate IsWordChar(c: char) {
    'a' <= c <= 'z' || 'A' <= c <= 'Z' || '0' <= c <= '9' || c == '_'
  }

  predicate IsUpper(c: char) {
    'A' <= c <= 'Z'
  }

  /** The characters a token can consist of: lower-case word characters. */
  predicate IsTokenChar(c: char) {
    IsWordChar(c) && !IsUpper(c)
  }

  /** `toLowerCase` on the ASCII alphabet. */
  function LowerChar(c: char): (d: char)
    ensures IsWordChar(d) <==> IsWordChar(c)
    ensures !IsUpper(d)
    ensures !IsUpper(c) ==> d == c
    ensures IsUpper(c) ==> 'a' <= d <= 'z' && d as int - 'a' as int == c as int - 'A' as int
  {
    if IsUpper(c) then (c as int + 32) as char else c
  }

  function Lower(s: string): (r: string)
    ensures |r| == |s|
    ensures forall i :: 0 <= i < |s| ==> r[i] == LowerChar(s[i])
  {
    seq(|s|, i requires 0 <= i < |s| => LowerChar(s[i]))
  }

  /** Lower-casing twice is lower-casing once. */
  lemma LowerIdempotent(s: string)
    ensures Lower(Lower(s)) == Lower(s)
  {
  }

  /** `s.split(/\W+/)`: the pieces between maximal runs of non-word characters.
      A leading (trailing) run yields an empty first (last) piece, and the
      empty string splits into one empty piece. Defined by how the pieces of
      `s` extend those of `s` without its last character. */
  function Split(s: string): (pieces: seq<string>)
    ensures |pieces| >= 1
  {
    if |s| == 0 then [""]
    else
      var init := Split(s[..|s| - 1]);
      var c := Last(s);
      if IsWordChar(c) then init[..|init| - 1] + [Last(init) + [c]]
      else if |s| > 1 && !IsWordChar(s[|s| - 2]) then init
      else init + [""]
  }

  /** The word characters of `s`, in order. */
  function WordChars(s: string): string {
    if |s| == 0 then ""
    else WordChars(s[..|s| - 1]) + (if IsWordChar(Last(s)) then [Last(s)] else "")
  }

  function Concat(ps: seq<string>): string {
    if |ps| == 0 then "" else Concat(ps[..|ps| - 1]) + Last(ps)
  }

  /** Every piece of the split consists of word characters of `s`. */
  lemma {:induction false} SplitPiecesAreWordChars(s: string)
    ensures forall p, c :: p in Split(s) && c in p ==> IsWordChar(c) && c in s
  {
    if |s| > 0 {
      var s' := s[..|s| - 1];
      var init := Split(s');
      SplitPiecesAreWordChars(s');
      assert forall c :: c in s' ==> c in s;
      var c := Last(s);
      if IsWordChar(c) {
        var pieces := init[..|init| - 1] + [Last(init) + [c]];
        forall p, d | p in pieces && d in p
          ensures IsWordChar(d) && d in s
        {
          if p != Last(init) + [c] {
            assert p in init;
          }
        }
      }
    }
  }

  /** Splitting loses exactly the non-word characters: the pieces put back
      together are the word characters of `s` in their original order. */
  lemma {:induction false} SplitKeepsWordChars(s: string)
    ensures Concat(Split(s)) == WordChars(s)
  {
    if |s| > 0 {
      var s' := s[..|s| - 1];
      var init := Split(s');
      SplitKeepsWordChars(s');
      var c := Last(s);
      if IsWordChar(c) {
        var pieces := init[..|init| - 1] + [Last(init) + [c]];
        assert pieces[..|pieces| - 1] == init[..|init| - 1];
        assert init == init[..|init| - 1] + [Last(init)];
        assert Concat(init) == Concat(init[..|init| - 1]) + Last(init);
        assert Concat(pieces) == Concat(init[..|init| - 1]) + Last(init) + [c];
      } else if |s| > 1 && !IsWordChar(s[|s| - 2]) {
      } else {
        var pieces := init + [""];
        assert pieces[..|pieces| - 1] == init;
      }
    }
  }

  /** Length of the run of word characters that ends `s`. */
  function WordSuffixLen(s: string): (n: nat)
    ensures n <= |s|
  {
    if |s| == 0 || !IsWordChar(Last(s)) then 0 else WordSuffixLen(s[..|s| - 1]) + 1
  }

  /** The last piece of the split is the run of word characters ending `s`. */
  lemma {:induction false} SplitLastPiece(s: string)
    ensures Last(Split(s)) == s[|s| - WordSuffixLen(s)..]
  {
    if |s| > 0 {
      var s' := s[..|s| - 1];
      SplitLastPiece(s');
      if IsWordChar(Last(s)) {
        assert s[|s| - WordSuffixLen(s)..] == s'[|s'| - WordSuffixLen(s')..] + [Last(s)];
      } else if |s| > 1 && !IsWordChar(s[|s| - 2]) {
        assert Last(s') == s[|s| - 2];
      }
    }
  }

  function Max(a: nat, b: nat): nat {
    if a < b then b else a
  }

  /** Length of the longest run of consecutive word characters in `s`: every
      run ends somewhere, so it is the largest word-suffix length of a prefix. */
  function LongestRun(s: string): nat {
    if |s| == 0 then 0 else Max(LongestRun(s[..|s| - 1]), WordSuffixLen(s))
  }

  /** Length of the longest piece. */
  function MaxLen(ps: seq<string>): nat {
    if |ps| == 0 then 0 else Max(MaxLen(ps[..|ps| - 1]), |Last(ps)|)
  }

  /** The longest piece of the split is the longest run of word characters. */
  lemma {:induction false} SplitMaxLen(s: string)
    ensures MaxLen(Split(s)) == LongestRun(s)
  {
    if |s| > 0 {
      var s' := s[..|s| - 1];
      var init := Split(s');
      SplitMaxLen(s');
      SplitLastPiece(s');
      if IsWordChar(Last(s)) {
        var pieces := init[..|init| - 1] + [Last(init) + [Last(s)]];
        assert pieces[..|pieces| - 1] == init[..|init| - 1];
        assert init[..|init| - 1] == init[..|init| - 1];
        assert MaxLen(init) == Max(MaxLen(init[..|init| - 1]), |Last(init)|);
      } else if |s| > 1 && !IsWordChar(s[|s| - 2]) {
      } else {
        var pieces := init + [""];
        assert pieces[..|pieces| - 1] == init;
      }
    }
  }

  /** A text made of word characters only is a single piece. */
  lemma {:induction false} SplitWord(w: string)
    requires forall i :: 0 <= i < |w| ==> IsWordChar(w[i])
    ensures Split(w) == [w]
  {
    if |w| > 0 {
      var w' := w[..|w| - 1];
      SplitWord(w');
      assert w == w' + [Last(w)];
    }
  }

  /** A separator: a non-empty run of non-word characters, what `\W+`
      matches. */
  predicate IsSeparator(sep: string) {
    |sep| > 0 && forall i :: 0 <= i < |sep| ==> !IsWordChar(sep[i])
  }

  /** `split` cuts at a separator: a run of non-word characters between a
      text that does not end in a separator and one that does not start
      with a separator splits into the pieces of both sides. */
  lemma {:induction false} SplitSeparated(x: string, sep: string, y: string)
    requires IsSeparator(sep)
    requires x == "" || IsWordChar(Last(x))
    requires y == "" || IsWordChar(y[0])
    ensures Split(x + sep + y) == Split(x) + Split(y)
  {
    if |y| == 0 {
      assert x + sep + y == x + sep;
      SplitTrailingSeparator(x, sep);
    } else {
      var y' := y[..|y| - 1];
      SplitSeparated(x, sep, y');
      SplitSeparatedStep(x + sep, Split(x), y);
    }
  }

  /** A separator after a word (or at the start) opens one empty piece,
      however long the run is. */
  lemma {:induction false} SplitTrailingSeparator(x: string, sep: string)
    requires IsSeparator(sep)
    requires x == "" || IsWordChar(Last(x))
    ensures Split(x + sep) == Split(x) + [""]
  {
    var s := x + sep;
    assert Last(s) == Last(sep);
    if |sep| == 1 {
      assert s[..|s| - 1] == x;
      if |x| > 0 {
        assert s[|s| - 2] == Last(x);
        SplitCutStep(s);
      }
    } else {
      var sep' := sep[..|sep| - 1];
      SplitTrailingSeparator(x, sep');
      assert s[..|s| - 1] == x + sep';
      assert s[|s| - 2] == sep[|sep| - 2];
      SplitRunStep(s);
    }
  }

  /** The inductive step of SplitSeparated: when `p + y` without its last
      character splits into `px` followed by the pieces of `y` without it,
      the last character of `y` extends both alike. */
  lemma SplitSeparatedStep(p: string, px: seq<string>, y: string)
    requires |y| > 0 && IsWordChar(y[0])
    requires Split(p + y[..|y| - 1]) == px + Split(y[..|y| - 1])
    ensures Split(p + y) == px + Split(y)
  {
    var s := p + y;
    assert s[..|s| - 1] == p + y[..|y| - 1];
    assert Last(s) == Last(y);
    if IsWordChar(Last(y)) {
      SeparatedWordStep(px, s, y);
    } else {
      assert s[|s| - 2] == y[|y| - 2];
      if IsWordChar(y[|y| - 2]) {
        SeparatedCutStep(px, s, y);
      } else {
        SplitRunStep(s);
        SplitRunStep(y);
      }
    }
  }

  /** SplitSeparatedStep when the last character is a word character. */
  lemma SeparatedWordStep(px: seq<string>, s: string, y: string)
    requires |s| > 0 && |y| > 0 && Last(s) == Last(y) && IsWordChar(Last(y))
    requires Split(s[..|s| - 1]) == px + Split(y[..|y| - 1])
    ensures Split(s) == px + Split(y)
  {
    SplitWordStep(s);
    SplitWordStep(y);
    ExtendLastPiece(px, Split(y[..|y| - 1]), Last(y));
  }

  /** SplitSeparatedStep when the last character ends a word. */
  lemma SeparatedCutStep(px: seq<string>, s: string, y: string)
    requires |s| > 1 && |y| > 1 && Last(s) == Last(y) && !IsWordChar(Last(y))
    requires s[|s| - 2] == y[|y| - 2] && IsWordChar(y[|y| - 2])
    requires Split(s[..|s| - 1]) == px + Split(y[..|y| - 1])
    ensures Split(s) == px + Split(y)
  {
    SplitCutStep(s);
    SplitCutStep(y);
    var py := Split(y[..|y| - 1]);
    assert (px + py) + [""] == px + (py + [""]);
  }

  /** A word character extends the last piece. */
  lemma SplitWordStep(s: string)
    requires |s| > 0 && IsWordChar(Last(s))
    ensures var init := Split(s[..|s| - 1]);
      Split(s) == init[..|init| - 1] + [Last(init) + [Last(s)]]
  {
  }

  /** A non-word character after a word character starts a new piece. */
  lemma SplitCutStep(s: string)
    requires |s| > 1 && !IsWordChar(Last(s)) && IsWordChar(s[|s| - 2])
    ensures Split(s) == Split(s[..|s| - 1]) + [""]
  {
  }

  /** A non-word character after a non-word character adds nothing. */
  lemma SplitRunStep(s: string)
    requires |s| > 1 && !IsWordChar(Last(s)) && !IsWordChar(s[|s| - 2])
    ensures Split(s) == Split(s[..|s| - 1])
  {
  }

  /** Appending a character to the last piece of `p + q` appends it to the
      last piece of `q`. */
  lemma ExtendLastPiece(p: seq<string>, q: seq<string>, d: char)
    requires |q| > 0
    ensures var pq := p + q;
      pq[..|pq| - 1] + [Last(pq) + [d]] == p + (q[..|q| - 1] + [Last(q) + [d]])
  {
    var pq := p + q;
    assert pq[..|pq| - 1] == p + q[..|q| - 1];
    assert Last(pq) == Last(q);
  }

  /** Three word characters start at position `i` of `s`. */
  predicate RunAt(s: string, i: int) {
    0 <= i && i + 3 <= |s| && IsWordChar(s[i]) && IsWordChar(s[i + 1]) && IsWordChar(s[i + 2])
  }

  /** Some three consecutive characters of `s` are word characters. */
  ghost predicate HasLongRun(s: string) {
    exists i :: RunAt(s, i)
  }

  lemma WordSuffixRun(s: string)
    ensures WordSuffixLen(s) > 2 <==> RunAt(s, |s| - 3)
  {
    if |s| >= 3 {
      var s' := s[..|s| - 1];
      var s'' := s'[..|s'| - 1];
      assert s[|s| - 2] == Last(s') && s[|s| - 3] == Last(s'');
    }
  }

  lemma {:induction false} LongestRunCharacterisation(s: string)
    ensures LongestRun(s) > 2 <==> HasLongRun(s)
  {
    if |s| > 0 {
      var s' := s[..|s| - 1];
      LongestRunCharacterisation(s');
      WordSuffixRun(s);
      assert forall i :: RunAt(s', i) ==> RunAt(s, i);
      assert forall i :: RunAt(s, i) && i != |s| - 3 ==> RunAt(s', i);
    }
  }

  /** `filter(w => w.length > 2)`. */
  function KeepLong(ps: seq<string>): (r: seq<string>)
    ensures |r| <= |ps|
  {
    if |ps| == 0 then []
    else KeepLong(ps[..|ps| - 1]) + (if |Last(ps)| > 2 then [Last(ps)] else [])
  }

  /** The filter keeps every piece longer than 2 as often as it occurs, and
      no other piece. */
  lemma {:induction false} KeepLongCounts(ps: seq<string>)
    ensures forall w :: multiset(KeepLong(ps))[w] == if |w| > 2 then multiset(ps)[w] else 0
  {
    if |ps| > 0 {
      var init := ps[..|ps| - 1];
      KeepLongCounts(init);
      assert ps == init + [Last(ps)];
    }
  }

  /** The filter keeps exactly the pieces longer than 2. */
  lemma KeepLongMembers(ps: seq<string>)
    ensures forall w :: w in KeepLong(ps) <==> w in ps && |w| > 2
  {
    KeepLongCounts(ps);
    forall w
      ensures w in KeepLong(ps) <==> w in ps && |w| > 2
    {
      assert w in KeepLong(ps) <==> multiset(KeepLong(ps))[w] > 0;
      assert w in ps <==> multiset(ps)[w] > 0;
    }
  }

  /** The filter keeps the order of the pieces: filtering a concatenation
      concatenates the filtered parts. */
  lemma {:induction false} KeepLongAppend(a: seq<string>, b: seq<string>)
    ensures KeepLong(a + b) == KeepLong(a) + KeepLong(b)
  {
    if |b| == 0 {
      assert a + b == a;
    } else {
      var ab := a + b;
      KeepLongAppend(a, b[..|b| - 1]);
      assert ab[..|ab| - 1] == a + b[..|b| - 1];
      assert Last(ab) == Last(b);
    }
  }

  lemma {:induction false} KeepLongEmpty(ps: seq<string>)
    ensures KeepLong(ps) == [] <==> MaxLen(ps) <= 2
  {
    if |ps| > 0 {
      KeepLongEmpty(ps[..|ps| - 1]);
    }
  }

  /** The tokens of a text, in order of occurrence. What they are is
      stated by the lemmas below: TokenShape, TokensOfWord and
      TokensSeparated. */
  function Tokens(text: string): (r: seq<string>)
    ensures text == "" ==> r == []
  {
    KeepLong(Split(Lower(text)))
  }

  /** Every token is longer than 2 and consists of lower-case word
      characters. */
  lemma TokenShape(text: string)
    ensures forall w :: w in Tokens(text) ==> |w| > 2 && forall i :: 0 <= i < |w| ==> IsTokenChar(w[i])
  {
    var s := Lower(text);
    SplitPiecesAreWordChars(s);
    KeepLongMembers(Split(s));
    assert forall c :: c in s ==> !IsUpper(c);
  }

  /** A text yields no token exactly when no three consecutive characters of
      it are word characters (empty text, only short words, only punctuation). */
  lemma TokensEmptyIff(text: string)
    ensures Tokens(text) == [] <==> !HasLongRun(text)
  {
    var s := Lower(text);
    KeepLongEmpty(Split(s));
    SplitMaxLen(s);
    LongestRunCharacterisation(s);
    assert forall i :: RunAt(s, i) <==> RunAt(text, i);
  }

  /** Tokenising ignores case: texts that agree once lower-cased have the
      same tokens, in particular a text and its lower-cased form. */
  lemma TokensIgnoreCase(a: string, b: string)
    ensures Lower(a) == Lower(b) ==> Tokens(a) == Tokens(b)
    ensures Tokens(Lower(a)) == Tokens(a)
  {
    LowerIdempotent(a);
  }

  lemma LowerConcat(x: string, sep: string, y: string)
    ensures Lower(x + sep + y) == Lower(x) + Lower(sep) + Lower(y)
  {
  }

  /** A text of word characters is one token when longer than 2 and none
      otherwise. */
  lemma TokensOfWord(w: string)
    requires forall i :: 0 <= i < |w| ==> IsWordChar(w[i])
    ensures Tokens(w) == if |w| > 2 then [Lower(w)] else []
  {
    var lw := Lower(w);
    assert forall i :: 0 <= i < |lw| ==> IsWordChar(lw[i]);
    SplitWord(lw);
    var ps := [lw];
    assert ps[..|ps| - 1] == [];
    assert Last(ps) == lw;
    assert KeepLong(ps) == KeepLong([]) + (if |lw| > 2 then [lw] else []);
  }

  /** Tokens are cut at separators and keep the order of the text: the
      tokens around a run of non-word characters are those of either side.
      Every text is its word runs joined by such separators, possibly with
      one before the first and one after the last, so with TokensOfWord this
      determines the tokens of every text. */
  lemma TokensSeparated(x: string, sep: string, y: string)
    requires IsSeparator(sep)
    requires x == "" || IsWordChar(Last(x))
    requires y == "" || IsWordChar(y[0])
    ensures Tokens(x + sep + y) == Tokens(x) + Tokens(y)
  {
    LowerConcat(x, sep, y);
    var lx, ly := Lower(x), Lower(y);
    assert lx == "" || IsWordChar(Last(lx));
    assert ly == "" || IsWordChar(ly[0]);
    assert IsSeparator(Lower(sep));
    SplitSeparated(lx, Lower(sep), ly);
    KeepLongAppend(Split(lx), Split(ly));
  }

  /** Lower-casing leaves a text without capitals unchanged. */
  lemma LowerWithoutCapitals(s: string)
    requires forall i :: 0 <= i < |s| ==> !IsUpper(s[i])
    ensures Lower(s) == s
  {
  }

  predicate IsLowerWord(w: string) {
    forall i :: 0 <= i < |w| ==> IsTokenChar(w[i])
  }

  /** Where the pieces are cut decides the tokens: in "abcd, efg, h" the
      words "abcd" and "efg" are tokens, in that order, and "h" is too
      short; so for any such words and separators. */
  lemma TokensOfThreeWords(a: string, b: string, c: string, sep: string)
    requires IsLowerWord(a) && IsLowerWord(b) && IsLowerWord(c)
    requires |a| > 2 && |b| > 2 && |c| <= 2 && IsSeparator(sep)
    ensures Tokens(a + sep + b + sep + c) == [a, b]
  {
    var rest := b + sep + c;
    assert Tokens(rest) == [b] by {
      TokensSeparated(b, sep, c);
      TokensOfWord(b);
      TokensOfWord(c);
      LowerWithoutCapitals(b);
    }
    assert Tokens(a) == [a] by {
      TokensOfWord(a);
      LowerWithoutCapitals(a);
    }
    assert Tokens(a + sep + rest) == [a, b] by {
      assert rest[0] == b[0];
      TokensSeparated(a, sep, rest);
    }
    Regroup(a, b, c, sep);
  }

  lemma Regroup(a: string, b: string, c: string, sep: string)
    ensures a + sep + b + sep + c == a + sep + (b + sep + c)
  {
  }
}

=== FILE: vectors.dfy ===
/**
 Real vectors: dot product, sum of squares, division by a scalar, and the
 square root the source takes from `Math.sqrt`. The square root is not
 computed: it is any function `sqrt` with `IsSqrt(sqrt)`, i.e. one that maps
 every non-negative number to the non-negative number whose square it is.

 Products of components are written with `Mul` and squares with `Square`,
 so that the sign facts proved about them once (`MulSign`, `SquareSign`)
 apply wherever they occur.
 */
module Vectors {
  import opened Seqs

  function Mul(a: real, b: real): real {
    a * b
  }

  function Square(x: real): real {
    Mul(x, x)
  }

  /** The sign of a product. */
  lemma MulSign(a: real, b: real)
    ensures (0.0 < a && 0.0 < b) || (a < 0.0 && b < 0.0) ==> 0.0 < Mul(a, b)
    ensures (0.0 <= a && 0.0 <= b) ==> 0.0 <= Mul(a, b)
    ensures a == 0.0 || b == 0.0 ==> Mul(a, b) == 0.0
  {
    if 0.0 < a && 0.0 < b {
      assert 0.0 < a * b;
    } else if a < 0.0 && b < 0.0 {
      assert a * b == (-a) * (-b);
      assert 0.0 < (-a) * (-b);
    }
  }

  /** Squares are non-negative and vanish only at zero. */
  lemma SquareSign(x: real)
    ensures 0.0 <= Square(x)
    ensures Square(x) == 0.0 <==> x == 0.0
  {
    MulSign(x, x);
  }

  /** Between non-negative numbers, comparing squares compares the numbers. */
  lemma SquareMonotonic(x: real, y: real)
    requires 0.0 <= x && 0.0 <= y
    ensures x < y ==> Square(x) < Square(y)
    ensures Square(x) == Square(y) ==> x == y
  {
    MulSign(y - x, y + x);
    MulSign(x - y, y + x);
    assert Square(y) - Square(x) == Mul(y - x, y + x);
  }

  ghost predicate IsSqrt(sqrt: real -> real) {
    forall x: real :: 0.0 <= x ==> 0.0 <= sqrt(x) && Square(sqrt(x)) == x
  }

  /** A square root is zero exactly at zero, positive elsewhere, and one at one. */
  lemma SqrtFacts(sqrt: real -> real, x: real)
    requires IsSqrt(sqrt)
    requires 0.0 <= x
    ensures sqrt(x) == 0.0 <==> x == 0.0
    ensures 0.0 < x ==> 0.0 < sqrt(x)
    ensures sqrt(1.0) == 1.0
  {
    SquareSign(sqrt(x));
    SquareMonotonic(sqrt(1.0), 1.0);
    assert Square(1.0) == 1.0;
  }

  predicate IsZero(v: seq<real>) {
    forall i :: 0 <= i < |v| ==> v[i] == 0.0
  }

  /** The dot product that the loop `dotProduct += a[i] * b[i]` sums up;
      it vanishes when either side is the zero vector. */
  function Dot(a: seq<real>, b: seq<real>): (r: real)
    requires |a| == |b|
    ensures IsZero(a) || IsZero(b) ==> r == 0.0
  {
    if |a| == 0 then 0.0
    else
      var a', b' := a[..|a| - 1], b[..|b| - 1];
      assert IsZero(a) ==> IsZero(a') by {
        assert forall i :: 0 <= i < |a'| ==> a'[i] == a[i];
      }
      assert IsZero(b) ==> IsZero(b') by {
        assert forall i :: 0 <= i < |b'| ==> b'[i] == b[i];
      }
      MulSign(Last(a), Last(b));
      Dot(a', b') + Mul(Last(a), Last(b))
  }

  /** `reduce((sum, val) => sum + val * val, 0)`: the squared Euclidean norm,
      which vanishes exactly on the zero vector. */
  function SumSq(v: seq<real>): (r: real)
    ensures 0.0 <= r
    ensures r == 0.0 <==> IsZero(v)
  {
    if |v| == 0 then 0.0
    else
      var init := v[..|v| - 1];
      SquareSign(Last(v));
      assert IsZero(v) <==> IsZero(init) && Last(v) == 0.0 by {
        assert forall i :: 0 <= i < |init| ==> init[i] == v[i];
      }
      SumSq(init) + Square(Last(v))
  }

  lemma {:induction false} DotSymmetric(a: seq<real>, b: seq<real>)
    requires |a| == |b|
    ensures Dot(a, b) == Dot(b, a)
  {
    if |a| > 0 {
      DotSymmetric(a[..|a| - 1], b[..|b| - 1]);
    }
  }

  lemma {:induction false} DotSelf(a: seq<real>)
    ensures Dot(a, a) == SumSq(a)
  {
    if |a| > 0 {
      DotSelf(a[..|a| - 1]);
    }
  }

  /** `sum_i (a[i] * y - x * b[i])^2`, the quantity behind Cauchy-Schwarz. */
  function CrossSq(a: seq<real>, b: seq<real>, x: real, y: real): (r: real)
    requires |a| == |b|
  {
    if |a| == 0 then 0.0
    else CrossSq(a[..|a| - 1], b[..|b| - 1], x, y) + Square(Mul(Last(a), y) - Mul(x, Last(b)))
  }

  lemma CrossStep(p: real, q: real, d: real, c: real, u: real, v: real, x: real, y: real,
                   P: real, Q: real, D: real, C: real)
    requires c == Mul(Square(y), p) - 2.0 * Mul(Mul(x, y), d) + Mul(Square(x), q)
    requires P == p + Square(u) && Q == q + Square(v) && D == d + Mul(u, v)
    requires C == c + Square(Mul(u, y) - Mul(x, v))
    ensures C == Mul(Square(y), P) - 2.0 * Mul(Mul(x, y), D) + Mul(Square(x), Q)
  {
    assert C == y * y * p - 2.0 * (x * y) * d + x * x * q + (u * y - x * v) * (u * y - x * v);
    assert Mul(Square(y), P) == y * y * (p + u * u);
    assert Mul(Mul(x, y), D) == (x * y) * (d + u * v);
    assert Mul(Square(x), Q) == x * x * (q + v * v);
  }

  lemma {:induction false} CrossSqExpand(a: seq<real>, b: seq<real>, x: real, y: real)
    requires |a| == |b|
    ensures CrossSq(a, b, x, y) == Mul(Square(y), SumSq(a)) - 2.0 * Mul(Mul(x, y), Dot(a, b)) + Mul(Square(x), SumSq(b))
    ensures 0.0 <= CrossSq(a, b, x, y)
  {
    if |a| > 0 {
      var a', b' := a[..|a| - 1], b[..|b| - 1];
      CrossSqExpand(a', b', x, y);
      var u, v := Last(a), Last(b);
      SquareSign(Mul(u, y) - Mul(x, v));
      assert CrossSq(a, b, x, y) == CrossSq(a', b', x, y) + Square(Mul(u, y) - Mul(x, v));
      assert SumSq(a) == SumSq(a') + Square(u);
      assert SumSq(b) == SumSq(b') + Square(v);
      assert Dot(a, b) == Dot(a', b') + Mul(u, v);
      CrossStep(SumSq(a'), SumSq(b'), Dot(a', b'), CrossSq(a', b', x, y), u, v, x, y,
                SumSq(a), SumSq(b), Dot(a, b), CrossSq(a, b, x, y));
    }
  }

  lemma CauchyStep(p: real, q: real, d: real, x: real, y: real, P: real, Q: real, D: real)
    requires Square(d) <= Mul(p, q)
    requires Mul(Square(y), p) - 2.0 * Mul(Mul(x, y), d) + Mul(Square(x), q) >= 0.0
    requires P == p + Square(x) && Q == q + Square(y) && D == d + Mul(x, y)
    ensures Square(D) <= Mul(P, Q)
  {
    assert y * y * p - 2.0 * (x * y) * d + x * x * q >= 0.0;
    assert d * d <= p * q;
    assert Square(D) == d * d + 2.0 * (x * y) * d + (x * x) * (y * y);
    assert Mul(P, Q) == p * q + y * y * p + x * x * q + (x * x) * (y * y);
  }

  /** Cauchy-Schwarz: `(a . b)^2 <= |a|^2 |b|^2`. */
  lemma {:induction false} CauchySchwarz(a: seq<real>, b: seq<real>)
    requires |a| == |b|
    ensures Square(Dot(a, b)) <= Mul(SumSq(a), SumSq(b))
  {
    if |a| > 0 {
      var a', b' := a[..|a| - 1], b[..|b| - 1];
      CauchySchwarz(a', b');
      var x, y := Last(a), Last(b);
      CrossSqExpand(a', b', x, y);
      CauchyStep(SumSq(a'), SumSq(b'), Dot(a', b'), x, y, SumSq(a), SumSq(b), Dot(a, b));
    }
  }

  /** `map(val => val / m)`. */
  function DivBy(v: seq<real>, m: real): (r: seq<real>)
    requires m != 0.0
    ensures |r| == |v|
    ensures forall i :: 0 <= i < |v| ==> Mul(r[i], m) == v[i]
  {
    seq(|v|, i requires 0 <= i < |v| => v[i] / m)
  }

  lemma DivStep(r: real, x: real, m: real, w: real, V: real, R: real, V': real)
    requires Mul(x, m) == w
    requires Mul(r, Square(m)) == V'
    requires R == r + Square(x) && V == V' + Square(w)
    ensures Mul(R, Square(m)) == V
  {
    assert Mul(R, Square(m)) == r * (m * m) + (x * m) * (x * m);
    assert V == V' + (x * m) * (x * m);
  }

  /** Dividing every component by `m` divides the squared norm by `m^2`. */
  lemma {:induction false} SumSqDivBy(v: seq<real>, m: real)
    requires m != 0.0
    ensures Mul(SumSq(DivBy(v, m)), Square(m)) == SumSq(v)
  {
    if |v| > 0 {
      var v' := v[..|v| - 1];
      SumSqDivBy(v', m);
      var r := DivBy(v, m);
      assert r[..|r| - 1] == DivBy(v', m);
      DivStep(SumSq(DivBy(v', m)), Last(r), m, Last(v), SumSq(v), SumSq(r), SumSq(v'));
    }
  }
}

=== FILE: wrappers.dfy ===
/** An optional value: the source's `field?: T`. */
module Wrappers {
  datatype Option<T> = None | Some(value: T)
}
